=== FILE: README.md ===
# next-workflow-engine, modelled in Dafny

This project models the core of next-workflow-engine. The engine stores a workflow as steps
joined by directed edges. It runs a workflow by ordering the steps with Kahn's algorithm and then
dispatching each step to its action in that order. An editor store holds the
workflow while it is being drawn. Translations move it between the editor's node/edge shape and
the stored step/edge rows.

| file | module | models |
|---|---|---|
| `wrappers.dfy` | `Wrappers` | `Option` (undefined/null), `Result` (a thrown error), `MapResults` (a `map` whose callback may throw) |
| `seqs.dfy` | `Seqs` | duplicate-freedom, element sets, first-occurrence order (the key order of a JavaScript `Map`), `filter` |
| `json.dfy` | `Json`, `Decimal` | JavaScript values, `typeof`, `Object.entries`, optional-chained property reads, `String(value)` as a property key, integer `toString` |
| `graph.dfy` | `Graph` | edges, in-degrees, topological orders, cycles |
| `topo_sort.dfy` | `TopoSort` | `topologicalSort` as a loop over a FIFO queue and an in-degree map |
| `inputs.dfy` | `Inputs` | `resolveStepInputs` |
| `actions.dfy` | `Actions` | `actionRegistry` and `ActionFactory.InitAction` |
| `start_action.dfy` | `StartAction` | `StartAction`, its schema, `WorkflowStep.getConfig` |
| `engine.dfy` | `Engine` | the loop of `WorkflowEngine.run` |
| `flow_store.dfy` | `FlowStore` | `useFlowStore`'s actions and `transformFlowStateToBackend` |
| `insert_flow.dfy` | `InsertFlow` | the `insertFlow` mutation |
| `get_workflow.dfy` | `GetWorkflow` | `mapWorkflowToReactFlow`, `getWorkflowByIdWithEdgesAndSteps`, `getWorkflowForClient` |

Effects are parameters:
- `run`'s workflow query is the `workflow` argument of `Engine.Run`.
- The awaited `execute()` of an action is the `execute` function argument.
- In `insertFlow`, the workflow insert returns the id `workflowRow`, and the `k`-th step insert returns `stepRow(k)`. `None` stands for an insert that returned no row.
- In `get-workflow.ts` the query result is the `row` argument.

A thrown error is a `Failure` carrying the error's message.

Behaviour the model follows where a reader might expect otherwise:
- **The sort accepts isolated steps.** The sort's error message (`main.ts:115`) says disconnected steps are rejected. The code seeds every step with in-degree 0, an isolated one included, so such steps are accepted. `TopoSort.TopologicalSort` is proved to fail exactly when step ids repeat or the edges contain a cycle. A repeated step id makes the output shorter than the step list (`main.ts:90-93`, `114-116`).
- **Actions receive the raw step.** The inputs resolved in `run` are computed and then dropped (`main.ts:38-43`). The model computes them too and passes the unchanged step to the action.
- **Only `wait` is registered.** `Actions.InitAction` fails on every other name, including `start` and `end`.
- **A missing or unnamed action.** When a step's joined action is `null`, `run` fails when it reads `.name`. When the action's name is `null`, the factory is asked for `"null"` and reports `Unknown action: null`.
- **The action join.** Both the step's action relation and an edge's target relation join on a column other than the one their names suggest (`schema.ts:90-93`, `123-126`). Here the joined action is simply whatever the query supplies.
- **`getWorkflowForClient` never returns `null`.** It is declared to return `null` when the workflow is missing, but it throws first.
- **Config nesting on reload.** A step's config is stored as a list of `{name, type, value}` entries, and reloading puts that list into the node's `data`. `transformFlowStateToBackend` therefore describes a reloaded node's data as an array: its entries are named `"0"`, `"1"`, and so on (`GetWorkflow.StoredConfigComesBackIndexed`). Nothing in the program calls `transformFlowStateToBackend`. The save button (`save-flow-buttom.tsx:22-32`) sends `saveWorkflow()` through `workflowSchema`, whose `data: z.record(...)` (`flow-store.ts:38`) refuses array data, so such a node is rejected before `insertFlow` runs.

## Model

| member | source | states |
|---|---|---|
| TopoSort.TopologicalSort | src/server/workflow-engine/main.ts:83-119 | On success the result lists every step id exactly once, every edge's source comes before its target, and the zero in-degree steps come first in declaration order. It throws "Workflow has a cycle or disconnected steps." exactly when step ids repeat or the edges contain a cycle. Every edge endpoint must be a step id. |
| TopoSort.BuildGraph | src/server/workflow-engine/main.ts:87-97 | Both maps are keyed by exactly the step ids, in first-occurrence order. Each in-degree is the number of edges into that step. Each adjacency list holds the edge targets in edge order. |
| TopoSort.SeedQueue | src/server/workflow-engine/main.ts:99-102 | The queue holds exactly the keys with in-degree zero, in map order. |
| TopoSort.Relax | src/server/workflow-engine/main.ts:108-111 | Each neighbour's in-degree drops by the number of times it is listed. The pushed steps are exactly those that just reached zero, each pushed once. They are pushed in neighbour-list order, each at its last occurrence in the list (`TopoSort.LastZeros`). |
| TopoSort.DrainOutcome | src/server/workflow-engine/main.ts:104-116 | When the queue empties, the output is shorter than the step list exactly when ids repeat or a cycle exists. |
| Graph.OrderedHasNoCycle | src/server/workflow-engine/main.ts:114-118 | A sequence that puts every edge's source before its target rules out any cycle. |
| Graph.CycleFromUnsatisfied | src/server/workflow-engine/main.ts:105-116 | If some steps remain and each has an incoming edge from another remaining step, the edges contain a cycle. |
| Graph.ZeroInMembers | src/server/workflow-engine/main.ts:100-102 | A step is seeded exactly when it is a key with no incoming edges. The seeds are duplicate-free when the keys are. |
| Inputs.ResolveStepInputs | src/server/workflow-engine/main.ts:59-81 | The keys are exactly the names of entries other than `workflowInput` entries. Each key holds the value of the last entry writing it: the literal's value, or the named property of the referenced step's output. |
| Inputs.WorkflowInputIgnored | src/server/workflow-engine/main.ts:65-77 | Appending a `workflowInput` entry leaves the record unchanged. |
| Inputs.ReferencedLength | src/server/workflow-engine/main.ts:74-76 | A reference to the `length` of an array or string output resolves to that output's length. `length` is an own property that `Object.entries` does not list. |
| Inputs.MissingOutputIsUndefined | src/server/workflow-engine/main.ts:74-76 | A reference to a step with no recorded output resolves to `undefined` instead of failing. |
| Inputs.ResolveReadsOnlyReferencedOutputs | src/server/workflow-engine/main.ts:74-76 | Two output maps that agree on the referenced step ids resolve any config identically. |
| Actions.InitAction | src/server/workflow-engine/actions/action-factory.ts:17-26 | It succeeds exactly for `"wait"` and wraps the unchanged step. Any other name throws `Unknown action: <name>`. It never yields null. |
| Actions.RegistryIsWaitOnly | src/server/workflow-engine/actions/action-factory.ts:7-14 | The registry has exactly one key, `wait`, which builds a wait action. |
| StartAction.StartConfigValid | src/server/workflow-engine/actions/start/schemas.ts:3-6 | A config passes exactly when it is an object whose `label` property reads `"Start"` and whose `deletable` property reads a boolean. Arrays, `null` and primitives fail. |
| StartAction.GetConfig | src/server/workflow-engine/workflow-step/workflow-step.ts:15-17 | It hands back the config of the row the step was built with, unchanged and unchecked. |
| StartAction.NewStartAction | src/server/workflow-engine/actions/start/start.ts:12-19 | It throws "unable to parse" exactly when the config fails the start schema. Otherwise it names the action `start` and keeps the step unchanged. |
| StartAction.Execute | src/server/workflow-engine/actions/start/start.ts:21-26 | The result is always `COMPLETE`, with the step's stored config as its input data. |
| StartAction.ExecuteEchoesValidatedConfig | src/server/workflow-engine/actions/start/start.ts:12-26 | Building then executing gives back exactly the config the action was built from, and that config satisfies the schema. |
| StartAction.StartSchemaAcceptsExtraProperties | src/server/workflow-engine/actions/start/schemas.ts:3-6 | The schema accepts a `"Start"` label and a boolean `deletable` whatever other properties follow. |
| StartAction.StartSchemaRejectsOtherLabel | src/server/workflow-engine/actions/start/schemas.ts:3-6 | Any step whose config's `label` does not read `"Start"` makes the constructor throw "unable to parse", whatever the rest of the config holds. |
| StartAction.StartSchemaRejectsBadDeletable | src/server/workflow-engine/actions/start/schemas.ts:3-6 | Any step whose config's `deletable` does not read a boolean, a missing one included, makes the constructor throw "unable to parse". |
| Engine.StepById | src/server/workflow-engine/main.ts:24-36 | A step is found exactly when some step has the id, and the step found carries that id. |
| Engine.ActionName | src/server/workflow-engine/actions/action-factory.ts:17-23 | The factory receives the action's name, or the key `"null"` when the name is null. |
| Engine.ExecuteInOrder | src/server/workflow-engine/main.ts:31-55 | The steps that ran form a prefix of the order, and each completed with its output recorded under its id. The walk returns at an id with no step. It throws with the message of the first step whose action is missing, unknown or failing. |
| Engine.Run | src/server/workflow-engine/main.ts:11-56 | A missing workflow returns having run nothing. A sort failure throws before any step runs. Otherwise the steps are dispatched in a topological order that begins with the zero in-degree steps. |
| Engine.RunOutcomeFacts | src/server/workflow-engine/main.ts:29-55 | If `run` returns normally, the executed steps form a complete topological order. When every step completes, it runs all of them. |
| Engine.StoppedAtUnfinished | src/server/workflow-engine/main.ts:33-53 | A walk that stopped early stopped at an existing step that did not complete. |
| FlowStore.SaveWorkflow | src/stores/flow-store.ts:188-192 | The state is left as it was, and the current workflow is returned. |
| FlowStore.InitialiseWorkflow | src/stores/flow-store.ts:169-196 | The workflow is reset to an empty "placeholder" flow whose sidebar shows no panel and has `selectedNode` null. The tags are kept and the new workflow is returned. |
| FlowStore.InitialiseRestoresInitial | src/stores/flow-store.ts:184-196 | Resetting a store that has the initial tags gives the store's initial state, and resetting twice is resetting once. |
| FlowStore.SetWorkflow | src/stores/flow-store.ts:197-204 | Every field of the given workflow replaces the current one, and the tags are kept. |
| FlowStore.SaveAfterSet | src/stores/flow-store.ts:188-204 | Saving right after setting returns exactly the workflow that was set and changes nothing. |
| FlowStore.SetActivePanel | src/stores/flow-store.ts:206-212 | Only `active` changes. |
| FlowStore.SetSelectedNode | src/stores/flow-store.ts:233-250 | Only `selectedNode` changes. |
| FlowStore.ShowNodePropertiesOf | src/stores/flow-store.ts:213-230 | `active` becomes "node-properties" and `selectedNode` becomes the node. Nothing outside the sidebar changes. |
| FlowStore.ShowIsActivateThenSelect | src/stores/flow-store.ts:206-250 | Showing a node's properties equals opening the properties panel and selecting the node, in either order. |
| FlowStore.SetTags | src/stores/flow-store.ts:253 | The tags are replaced and the workflow is untouched. |
| FlowStore.CreateTag | src/stores/flow-store.ts:254-257 | The tag is appended at the end, and the existing tags keep their places. |
| FlowStore.UpdateTag | src/stores/flow-store.ts:258-261 | The length is kept. Exactly the tags sharing the old tag's `value` become the new tag. |
| FlowStore.UpdateTagIdempotent | src/stores/flow-store.ts:258-261 | Repeating an update changes nothing more. |
| FlowStore.UpdateAbsentTag | src/stores/flow-store.ts:258-261 | An update whose value no tag carries leaves the state unchanged. |
| FlowStore.DeleteTag | src/stores/flow-store.ts:262-265 | Exactly the tags with the given `value` are removed. The rest remain, in order. |
| FlowStore.DeleteTagIdempotent | src/stores/flow-store.ts:262-265 | Deleting twice is deleting once. |
| FlowStore.DeleteUndoesCreate | src/stores/flow-store.ts:254-265 | Deleting a tag also removes a copy of it that was just created. |
| FlowStore.SetNodes | src/stores/flow-store.ts:282-284 | Only the nodes change. |
| FlowStore.SetEdges | src/stores/flow-store.ts:316-318 | Only the edges change. |
| FlowStore.DeleteNode | src/stores/flow-store.ts:285-292 | Exactly the nodes with the given id are removed, with the rest kept in order. The edges, tags and sidebar are untouched. |
| FlowStore.DeleteEdge | src/stores/flow-store.ts:319-326 | Exactly the edges with the given id are removed, with the rest kept in order. The nodes, tags and sidebar are untouched. |
| FlowStore.DeleteNodeLeavesDanglingEdges | src/stores/flow-store.ts:285-292 | An edge leaving or entering the deleted node survives, and that endpoint now names no node. |
| FlowStore.DeleteNodeIdempotent | src/stores/flow-store.ts:285-292 | Deleting a node twice is deleting it once. |
| FlowStore.DeleteEdgeIdempotent | src/stores/flow-store.ts:319-326 | Deleting an edge twice is deleting it once. |
| FlowStore.DeleteAbsentNode | src/stores/flow-store.ts:285-292 | Deleting an id that no node carries changes nothing. |
| FlowStore.ActionIdFor | src/stores/flow-store.ts:345 | The node type, converted to a property key, selects the id the map holds under that key, or `undefined` when the map lacks it. A string type is its own key, and an `undefined` type looks up the key `"undefined"`. |
| FlowStore.ConfigOf | src/stores/flow-store.ts:346-350 | There is one entry per data property, in order, with the name, `typeof` and value unchanged. Nullish data throws. |
| FlowStore.ConfigRebuildsData | src/stores/flow-store.ts:346-350 | A node's data object can be rebuilt exactly from its config list. |
| FlowStore.StepOf | src/stores/flow-store.ts:343-351 | A step is built exactly when the node's data is neither `null` nor `undefined`. Its `reactNodeId` is the node's id, its action id is the one `ActionIdFor` selects for the node type, and its config is the node data's `ConfigOf` list. |
| FlowStore.TransformFlowStateToBackend | src/stores/flow-store.ts:331-365 | There is one step per node that is neither a start nor an end node, in order, and one `{source, target}` per edge, in order. The name is kept. It throws exactly when a kept node's data is nullish. |
| FlowStore.OnlyStartEndGivesNoSteps | src/stores/flow-store.ts:341-342 | Start and end nodes produce no steps. |
| FlowStore.TransformKeepsNodeOrder | src/stores/flow-store.ts:341-352 | The steps of a concatenated node list are the steps of each part, in order. |
| InsertFlow.InsertTypeName | src/server/api/routers/workflow.ts:45-50 | Strings give "string" and booleans give "boolean". Everything else gives "number". |
| InsertFlow.InsertTypeVersusTypeOf | src/server/api/routers/workflow.ts:45-50 | The recorded type matches `typeof` on strings, booleans and numbers. Every other value, null included, is recorded as "number". |
| InsertFlow.InsertConfig | src/server/api/routers/workflow.ts:43-52 | There is one entry per data property, in order, with the name and value unchanged and the recorded type. |
| InsertFlow.StepInsertFor | src/server/api/routers/workflow.ts:43-60 | Each step row stores the node's data as the typed entry list `InsertFlow.InsertConfig` builds. It has action id 1, the node id as `reactNodeId`, and the first config entry, when there is one, as its output values. |
| InsertFlow.IdMap | src/server/api/routers/workflow.ts:39-71 | The map's keys are the inserted nodes' ids. A node id carried by several nodes maps to the step id returned last. |
| InsertFlow.IdMapValues | src/server/api/routers/workflow.ts:61-71 | Every mapped value is a step id that an insert returned. |
| InsertFlow.InsertSteps | src/server/api/routers/workflow.ts:38-72 | One row is inserted per actionable node, in order. It stops with nothing when any insert returns nothing. Otherwise it yields the step-id map. |
| InsertFlow.EdgeInserts | src/server/api/routers/workflow.ts:74-88 | The edge rows are exactly the editor edges whose endpoints are both mapped, in order, carrying the mapped step ids and the workflow id. |
| InsertFlow.InsertEdges | src/server/api/routers/workflow.ts:74-88 | The loop inserts exactly those edge rows. |
| InsertFlow.InsertFlow | src/server/api/routers/workflow.ts:21-90 | It rolls back exactly when the workflow insert or any step insert returns nothing. Otherwise it commits the workflow row, the step rows and the edge rows above. |
| InsertFlow.CommittedEdgesJoinInsertedSteps | src/server/api/routers/workflow.ts:74-88 | Every edge row built from the step-id map joins two step ids the inserts returned, and carries the workflow id. So the rows `insertFlow` commits meet the engine's sort precondition. |
| InsertFlow.EdgesToDroppedNodesAreDropped | src/server/api/routers/workflow.ts:76-80 | An edge touching a node that received no step, such as a start or end node, yields no row. |
| InsertFlow.EdgesBetweenStepsAreKept | src/server/api/routers/workflow.ts:76-87 | An edge between two nodes that received steps yields a row. |
| GetWorkflow.NodeOf | src/services/get-workflow.ts:38-54 | The node id is the decimal step id, the type is the action name, and the data is the stored config. `selected` and `dragging` are false. A null action throws. |
| GetWorkflow.EdgeOf | src/services/get-workflow.ts:31-36 | The id, source and target are the decimal renderings of the row's ids, and the type is "deletable". |
| GetWorkflow.MapWorkflowToReactFlow | src/services/get-workflow.ts:23-72 | No row gives null. Otherwise there is one node per step and one edge per row, in order, "no name" stands in for a null name, and the sidebar shows the available nodes with nothing selected. |
| GetWorkflow.GetWorkflowByIdWithEdgesAndSteps | src/services/get-workflow.ts:74-81 | It throws "error fetching workflow" exactly when the query finds nothing. Otherwise it returns the row unchanged. |
| GetWorkflow.GetWorkflowForClient | src/services/get-workflow.ts:13-21 | It throws on a missing workflow, so any result it returns is non-null. |
| GetWorkflow.LoadedEdgeEndpoints | src/services/get-workflow.ts:31-40 | A loaded edge points at a loaded node exactly when its stored endpoint is a stored step id. |
| GetWorkflow.LoadedNodeIdsDistinct | src/services/get-workflow.ts:38-40 | Loaded node ids repeat exactly when stored step ids do. |
| GetWorkflow.ReloadedEdgesKeepEndpoints | src/services/get-workflow.ts:31-36 | `transformFlowStateToBackend` describes each stored edge of a loaded workflow with its endpoints as node ids. |
| GetWorkflow.StoredConfigComesBackIndexed | src/services/get-workflow.ts:42 | A config stored as a list comes back as an array. `transformFlowStateToBackend` describes it with one entry per element. Each entry is named by the index that reads that element back, and typed by the element's `typeof`, which is "object" for a stored `{name, type, value}` entry. |

## Left out

- Database access, transactions and promises. Queries and inserts are arguments, and everything runs sequentially. An edge insert that throws, and the exception `tx.rollback()` raises, are not modelled. `InsertFlow` reports a roll-back as an outcome.
- `WaitAction.execute` and `EndAction.Execute`: database writes and timed waits. In `run` they are the `execute` argument.
- zod parsing. Only the fields the code reads are checked: the start schema, and `insertFlow`'s reliance on every node having a string type and a record as data (`InsertFlow.ParsedInput`).
- xyflow's `applyNodeChanges`, `applyEdgeChanges` and `addEdge`, hence `onNodesChange`, `onEdgesChange` and `onConnect`. These are foreign library code.
- `nanoid`. The initial workflow id is a parameter.
- `getWorkflowInstances` and the tRPC routes `startFlow` and `getWorkflow`. `getWorkflow` is not part of this model.
- Properties inherited through the prototype chain, and non-enumerable own properties other than an array's or string's `length`. A lookup in `actionMap`, `stepIdMap` or the action registry with a key such as "constructor" would find a function. Here it finds nothing. A write under the key `__proto__` (`resolved[input.name]` at `main.ts:72,75`, `stepIdMap[node.id]` at `workflow.ts:71`) is modelled as an ordinary key, where JavaScript calls the prototype setter and creates no own property.
- Inputs.ReferencedLength: strings are sequences of Unicode scalar values. A JavaScript string's `length` and its `Object.entries` index entries count UTF-16 code units, so they differ for characters outside the Basic Multilingual Plane. `Json.Entries` on a string has the same limit.
- Floating-point numbers. Numbers are integers, so `toString` of fractions is not modelled.
- The enumeration order of integer-like keys. Objects keep insertion order here, while JavaScript lists integer-like keys first.
- TopoSort.TopologicalSort: states that the result is a topological order beginning with the zero in-degree steps, not which such order the FIFO queue yields.
- Engine.Run: states that the steps are dispatched in some topological order beginning with the zero in-degree steps, not the exact order the sort produces.
- `console.error` in the start action's constructor.
- Inputs.ResolveStepInputs: a step's config is a list of inputs, as `insertFlow` writes it. `for (const input of config)` (`main.ts:65`) throws a TypeError on a stored config that is not iterable, such as the `{duration: n}` object the wait schema describes (`actions/wait/schemas.ts:5-7`). `Engine.ExecuteInOrder` therefore does not model that throw.
- The save path: the save button (`save-flow-buttom.tsx:22-32`) parses `saveWorkflow()` with `workflowSchema` and sends the result to `insertFlow`. Only the parts of `workflowSchema` that `insertFlow` relies on are modelled (`InsertFlow.ParsedInput`). The button's validation hook and toasts are UI code.

=== FILE: actions.dfy ===
/** The action registry and `ActionFactory.InitAction`: a closed lookup from an
    action name to the class that wraps a step. */
module Actions {
  import opened Wrappers

  /** The action classes the registry can name. */
  datatype ActionKind = WaitKind

  /** `actionRegistry`: one entry, `wait`. */
  const Registry: map<string, ActionKind> := map["wait" := WaitKind]

  /** An action instance built around the step it was given. */
  datatype Action<S> = WaitAction(step: S)

  function Construct<S>(kind: ActionKind, step: S): Action<S> {
    match kind
    case WaitKind => WaitAction(step)
  }

  function UnknownActionMessage(name: string): string {
    "Unknown action: " + name
  }

  /** Looks the name up in the registry and builds a fresh instance from the step,
      or throws for a name the registry does not hold. Never yields null. */
  function InitAction<S>(name: string, step: S): (r: Result<Action<S>, string>)
    ensures r.Success? <==> name == "wait"
    ensures r.Success? ==> r.value.WaitAction? && r.value.step == step
    ensures r.Failure? ==> r.error == UnknownActionMessage(name)
  {
    if name in Registry then Success(Construct(Registry[name], step))
    else Failure(UnknownActionMessage(name))
  }

  /** The registry holds exactly the `wait` action. */
  lemma RegistryIsWaitOnly()
    ensures Registry.Keys == {"wait"}
    ensures forall name | name in Registry :: Construct(Registry[name], 0) == WaitAction(0)
  {
  }
}

=== FILE: engine.dfy ===
/** `WorkflowEngine.run`: load a workflow, sort its steps, then for each step in
    that order resolve its inputs, build its action through the factory, run it
    and record its output. The database query is the `workflow` argument and the
    action's effectful execution is the `execute` argument. */
module Engine {
  import opened Wrappers
  import opened Seqs
  import opened Json
  import opened Graph
  import opened TopoSort
  import opened Inputs
  import opened Actions

  /** The action row joined to a step; its name column may be `null`. */
  datatype StepAction = StepAction(name: Option<string>)

  /** A step row with its joined action, which may be missing; `config` as the engine
      reads it. */
  datatype Step = Step(id: int, action: Option<StepAction>, config: seq<ActionInput>)

  /** The action name handed to the factory; a `null` name becomes the key "null". */
  function ActionName(a: StepAction): (name: string)
    ensures a.name.Some? ==> name == a.name.value
    ensures a.name.None? ==> name == PropertyKey(Null)
  {
    match a.name
    case Some(n) => n
    case None => "null"
  }

  datatype WorkflowRecord = WorkflowRecord(id: int, steps: seq<Step>, edges: seq<StepEdge>)

  /** What `run` did: the steps whose action ran to completion, in order, and the
      outputs recorded for them; either it returned (always `null`) or it threw. */
  datatype RunOutcome =
    | Returned(executed: seq<int>, outputs: StepOutputs)
    | Threw(error: string, executed: seq<int>, outputs: StepOutputs)

  /** The effectful part of an action: its output, or the message it throws. */
  type Executor = Action<Step> -> Result<Json, string>

  function StepIds(steps: seq<Step>): (ids: seq<int>)
    ensures |ids| == |steps| && forall i | 0 <= i < |steps| :: ids[i] == steps[i].id
  {
    seq(|steps|, i requires 0 <= i < |steps| => steps[i].id)
  }

  /** Lookup in `new Map(steps.map(s => [s.id, s]))`: the last step with that id. */
  function StepById(steps: seq<Step>, id: int): (r: Option<Step>)
    ensures r.Some? <==> id in StepIds(steps)
    ensures r.Some? ==> r.value in steps && r.value.id == id
    decreases |steps|
  {
    if |steps| == 0 then None
    else if steps[|steps| - 1].id == id then
      assert StepIds(steps)[|steps| - 1] == id;
      Some(steps[|steps| - 1])
    else
      assert StepIds(steps) == StepIds(steps[..|steps| - 1]) + [steps[|steps| - 1].id];
      StepById(steps[..|steps| - 1], id)
  }

  /** The step with this id exists, names the registered action, and its
      execution returns normally. */
  predicate Completes(steps: seq<Step>, execute: Executor, id: int) {
    && StepById(steps, id).Some?
    && StepById(steps, id).value.action.Some?
    && ActionName(StepById(steps, id).value.action.value) == "wait"
    && execute(WaitAction(StepById(steps, id).value)).Success?
  }

  function OutputOf(steps: seq<Step>, execute: Executor, id: int): Json
    requires Completes(steps, execute, id)
  {
    execute(WaitAction(StepById(steps, id).value)).value
  }

  /** The steps in `executed` are the first ones of `order`; each completed, and its
      output is recorded under its id. */
  ghost predicate Progress(order: seq<int>, steps: seq<Step>, execute: Executor, executed: seq<int>, outputs: StepOutputs) {
    && |executed| <= |order|
    && executed == order[..|executed|]
    && (forall k | 0 <= k < |executed| :: Completes(steps, execute, order[k]))
    && outputs.Keys == Elems(executed)
    && (forall id | id in outputs :: Completes(steps, execute, id) && outputs[id] == OutputOf(steps, execute, id))
  }

  /** `r` is what walking `order` does: a prefix of `order` completes, each with its
      output recorded; the walk stops at the end of `order`, at an id with no step
      (returning), or at the first step whose action is missing, unknown or throws. */
  ghost predicate Dispatched(order: seq<int>, steps: seq<Step>, execute: Executor, r: RunOutcome) {
    var n := |r.executed|;
    && Progress(order, steps, execute, r.executed, r.outputs)
    && (r.Returned? ==> n == |order| || StepById(steps, order[n]).None?)
    && (r.Threw? ==>
          && n < |order|
          && StepById(steps, order[n]).Some?
          && var step := StepById(steps, order[n]).value;
             if step.action.None? then r.error == NullReadMessage("name")
             else if ActionName(step.action.value) != "wait" then r.error == UnknownActionMessage(ActionName(step.action.value))
             else execute(WaitAction(step)) == Failure(r.error))
  }

  lemma ProgressStep(order: seq<int>, steps: seq<Step>, execute: Executor, i: nat, outputs: StepOutputs)
    requires i < |order| && Progress(order, steps, execute, order[..i], outputs)
    requires Completes(steps, execute, order[i])
    ensures Progress(order, steps, execute, order[..i + 1], outputs[order[i] := OutputOf(steps, execute, order[i])])
  {
    assert order[..i + 1] == order[..i] + [order[i]];
  }

  /** The loop of `run` over an already computed order. */
  method ExecuteInOrder(order: seq<int>, steps: seq<Step>, execute: Executor) returns (r: RunOutcome)
    ensures Dispatched(order, steps, execute, r)
  {
    var outputs: StepOutputs := map[];
    var i := 0;
    while i < |order|
      invariant 0 <= i <= |order|
      invariant Progress(order, steps, execute, order[..i], outputs)
    {
      var found := StepById(steps, order[i]);
      if found.None? {
        return Returned(order[..i], outputs);
      }
      var step := found.value;
      // The resolved inputs are computed and then dropped: the action receives the raw step.
      var resolvedInputs := ResolveStepInputs(step.config, outputs);
      if step.action.None? {
        return Threw(NullReadMessage("name"), order[..i], outputs);
      }
      var action := InitAction(ActionName(step.action.value), step);
      if action.Failure? {
        return Threw(action.error, order[..i], outputs);
      }
      var output := execute(action.value);
      if output.Failure? {
        return Threw(output.error, order[..i], outputs);
      }
      ProgressStep(order, steps, execute, i, outputs);
      outputs := outputs[order[i] := output.value];
      i := i + 1;
    }
    assert order[..i] == order;
    return Returned(order, outputs);
  }

  /** Every edge of the workflow joins two of its steps. */
  predicate WellFormed(w: WorkflowRecord) {
    EndpointsKnown(StepIds(w.steps), w.edges)
  }

  /** `run`. A missing workflow returns `null` having executed nothing; a sort
      failure throws before any step runs; otherwise the steps are dispatched in a
      topological order that starts with the zero in-degree steps. */
  method Run(workflow: Option<WorkflowRecord>, execute: Executor) returns (r: RunOutcome)
    requires workflow.Some? ==> WellFormed(workflow.value)
    ensures workflow.None? ==> r == Returned([], map[])
    ensures workflow.Some? && (!Distinct(StepIds(workflow.value.steps)) || HasCycle(workflow.value.edges)) ==>
              r == Threw(CycleMessage, [], map[])
    ensures workflow.Some? && Distinct(StepIds(workflow.value.steps)) && !HasCycle(workflow.value.edges) ==>
              exists order ::
                && IsTopologicalOrder(StepIds(workflow.value.steps), workflow.value.edges, order)
                && Seed(StepIds(workflow.value.steps), workflow.value.edges) <= order
                && Dispatched(order, workflow.value.steps, execute, r)
    ensures workflow.Some? && Distinct(StepIds(workflow.value.steps)) && !HasCycle(workflow.value.edges) ==>
              (r.Returned? ==> IsTopologicalOrder(StepIds(workflow.value.steps), workflow.value.edges, r.executed))
    ensures workflow.Some? && Distinct(StepIds(workflow.value.steps)) && !HasCycle(workflow.value.edges)
            && (forall s | s in workflow.value.steps :: Completes(workflow.value.steps, execute, s.id)) ==>
              r.Returned? && IsTopologicalOrder(StepIds(workflow.value.steps), workflow.value.edges, r.executed)
  {
    if workflow.None? {
      return Returned([], map[]);
    }
    var w := workflow.value;
    var sorted := TopologicalSort(StepIds(w.steps), w.edges);
    if sorted.Failure? {
      return Threw(sorted.error, [], map[]);
    }
    var order := sorted.value;
    r := ExecuteInOrder(order, w.steps, execute);
    RunOutcomeFacts(w, execute, order, r);
  }

  /** Where the walk stopped early there is a step that did not complete. */
  lemma StoppedAtUnfinished(w: WorkflowRecord, execute: Executor, order: seq<int>, r: RunOutcome)
    requires IsTopologicalOrder(StepIds(w.steps), w.edges, order)
    requires Dispatched(order, w.steps, execute, r)
    requires |r.executed| < |order|
    ensures StepById(w.steps, order[|r.executed|]).Some?
    ensures !Completes(w.steps, execute, order[|r.executed|])
  {
    assert order[|r.executed|] in Elems(StepIds(w.steps));
  }

  lemma RunOutcomeFacts(w: WorkflowRecord, execute: Executor, order: seq<int>, r: RunOutcome)
    requires IsTopologicalOrder(StepIds(w.steps), w.edges, order)
    requires Dispatched(order, w.steps, execute, r)
    ensures r.Returned? ==> IsTopologicalOrder(StepIds(w.steps), w.edges, r.executed)
    ensures (forall s | s in w.steps :: Completes(w.steps, execute, s.id)) ==> r.Returned? && r.executed == order
  {
    var n := |r.executed|;
    if n < |order| {
      StoppedAtUnfinished(w, execute, order, r);
      var s := StepById(w.steps, order[n]).value;
      assert s in w.steps && !Completes(w.steps, execute, s.id);
    } else {
      assert order[..n] == order;
    }
  }
}

=== FILE: flow_store.dfy ===
/** The editor's state store (`useFlowStore`) and the translation of its workflow into
    the shape the backend stores. Every store action is a pure function from the state
    before to the state after; the xyflow node and edge records keep only the fields
    this program reads or writes. */
module FlowStore {
  import opened Wrappers
  import opened Seqs
  import opened Json

  /** A tag; `name` is the field the source calls `label`. */
  datatype Tag = Tag(value: string, name: string, color: string)

  datatype Position = Position(x: Json, y: Json)
  datatype Measured = Measured(width: Json, height: Json)

  /** An editor node. `nodeType` is optional in xyflow, so it is any value. */
  datatype FlowNode = FlowNode(
    id: string, nodeType: Json, data: Json, position: Position,
    selected: bool, measured: Measured, dragging: bool)

  /** The ids of `nodes`, in order. */
  function NodeIds(nodes: seq<FlowNode>): (ids: seq<string>)
    ensures |ids| == |nodes| && forall i | 0 <= i < |nodes| :: ids[i] == nodes[i].id
  {
    seq(|nodes|, i requires 0 <= i < |nodes| => nodes[i].id)
  }

  datatype FlowEdge = FlowEdge(id: string, source: string, target: string, edgeType: Json)

  datatype NodeRef = NodeRef(id: string, nodeType: string)

  /** `selectedNode` may hold a node, `null`, or `undefined`. */
  datatype Selection = SelectedNull | SelectedUndefined | Selected(node: NodeRef)

  datatype Panel = NodeProperties | AvailableNodes | NoPanel

  function PanelName(p: Panel): string {
    match p
    case NodeProperties => "node-properties"
    case AvailableNodes => "available-nodes"
    case NoPanel => "none"
  }

  /** The sidebar; `selectedNode` stands for `panels.nodeProperties.selectedNode`. */
  datatype Sidebar = Sidebar(active: string, selectedNode: Selection)

  datatype Workflow = Workflow(
    id: string, name: string, nodes: seq<FlowNode>, edges: seq<FlowEdge>, sidebar: Sidebar)

  datatype FlowState = FlowState(tags: seq<Tag>, workflow: Workflow)

  const Tags: seq<Tag> := [
    Tag("marketing", "Marketing", "#ef4444"),
    Tag("support", "Support", "#ef4444"),
    Tag("lead", "Lead", "#eab308"),
    Tag("new", "New", "#22c55e")
  ]

  /** `initFlow`; its id is the one `nanoid()` drew when the module loaded. */
  function InitFlow(id: string): Workflow {
    Workflow(id, "placeholder", [], [], Sidebar(PanelName(NoPanel), SelectedNull))
  }

  function Initial(id: string): FlowState {
    FlowState(Tags, InitFlow(id))
  }

  /** Everything but the sidebar is as it was. */
  predicate SameOutsideSidebar(s: FlowState, r: FlowState) {
    && r.tags == s.tags
    && r.workflow.id == s.workflow.id
    && r.workflow.name == s.workflow.name
    && r.workflow.nodes == s.workflow.nodes
    && r.workflow.edges == s.workflow.edges
  }

  // ---------------------------------------------------------------- workflow

  /** `saveWorkflow`: writes back the current workflow and returns it. */
  function SaveWorkflow(s: FlowState): (r: (FlowState, Workflow))
    ensures r.0 == s
    ensures r.1 == s.workflow
  {
    (s.(workflow := s.workflow), s.workflow)
  }

  /** `initialiseWorkflow`: resets the workflow to `initFlow`, keeping the tags. */
  function InitialiseWorkflow(s: FlowState, initId: string): (r: (FlowState, Workflow))
    ensures r.0.tags == s.tags && r.0.workflow == r.1
    ensures r.1.id == initId && r.1.name == "placeholder"
    ensures r.1.nodes == [] && r.1.edges == []
    ensures r.1.sidebar.active == "none" && r.1.sidebar.selectedNode == SelectedNull
  {
    var w := InitFlow(initId);
    (s.(workflow := w), w)
  }

  /** `setWorkflow`: every field of the argument overrides the current one. */
  function SetWorkflow(s: FlowState, w: Workflow): (r: FlowState)
    ensures r.tags == s.tags
    ensures r.workflow == w
  {
    var cur := s.workflow;
    s.(workflow := cur.(id := w.id, name := w.name, nodes := w.nodes, edges := w.edges, sidebar := w.sidebar))
  }

  /** A fresh store and one reset after any editing agree. */
  lemma InitialiseRestoresInitial(s: FlowState, initId: string)
    requires s.tags == Tags
    ensures InitialiseWorkflow(s, initId).0 == Initial(initId)
    ensures InitialiseWorkflow(InitialiseWorkflow(s, initId).0, initId) == InitialiseWorkflow(s, initId)
  {
  }

  /** Saving after setting returns exactly what was set. */
  lemma SaveAfterSet(s: FlowState, w: Workflow)
    ensures SaveWorkflow(SetWorkflow(s, w)).1 == w
    ensures SaveWorkflow(SetWorkflow(s, w)).0 == SetWorkflow(s, w)
  {
  }

  // ----------------------------------------------------------------- sidebar

  /** `setActivePanel`: changes `active` only. */
  function SetActivePanel(s: FlowState, p: Panel): (r: FlowState)
    ensures SameOutsideSidebar(s, r)
    ensures r.workflow.sidebar.active == PanelName(p)
    ensures r.workflow.sidebar.selectedNode == s.workflow.sidebar.selectedNode
  {
    s.(workflow := s.workflow.(sidebar := s.workflow.sidebar.(active := PanelName(p))))
  }

  /** `setSelectedNode`: changes `selectedNode` only. */
  function SetSelectedNode(s: FlowState, node: Selection): (r: FlowState)
    ensures SameOutsideSidebar(s, r)
    ensures r.workflow.sidebar.active == s.workflow.sidebar.active
    ensures r.workflow.sidebar.selectedNode == node
  {
    s.(workflow := s.workflow.(sidebar := s.workflow.sidebar.(selectedNode := node)))
  }

  /** `showNodePropertiesOf`: opens the properties panel on the given node. */
  function ShowNodePropertiesOf(s: FlowState, node: NodeRef): (r: FlowState)
    ensures SameOutsideSidebar(s, r)
    ensures r.workflow.sidebar.active == "node-properties"
    ensures r.workflow.sidebar.selectedNode == Selected(node)
  {
    s.(workflow := s.workflow.(sidebar := Sidebar("node-properties", Selected(node))))
  }

  /** Showing a node's properties is selecting it and opening the properties panel,
      in either order. */
  lemma ShowIsActivateThenSelect(s: FlowState, node: NodeRef)
    ensures ShowNodePropertiesOf(s, node) == SetSelectedNode(SetActivePanel(s, NodeProperties), Selected(node))
    ensures ShowNodePropertiesOf(s, node) == SetActivePanel(SetSelectedNode(s, Selected(node)), NodeProperties)
  {
  }

  // -------------------------------------------------------------------- tags

  function SetTags(s: FlowState, tags: seq<Tag>): (r: FlowState)
    ensures r.tags == tags && r.workflow == s.workflow
  {
    s.(tags := tags)
  }

  /** `createTag`: appends; the existing tags keep their places. */
  function CreateTag(s: FlowState, tag: Tag): (r: FlowState)
    ensures r.workflow == s.workflow
    ensures |r.tags| == |s.tags| + 1
    ensures r.tags[..|s.tags|] == s.tags && r.tags[|s.tags|] == tag
  {
    s.(tags := s.tags + [tag])
  }

  /** `updateTag`: every tag sharing the old tag's `value` becomes `newTag`. */
  function UpdateTag(s: FlowState, tag: Tag, newTag: Tag): (r: FlowState)
    ensures r.workflow == s.workflow
    ensures |r.tags| == |s.tags|
    ensures forall i | 0 <= i < |s.tags| && s.tags[i].value == tag.value :: r.tags[i] == newTag
    ensures forall i | 0 <= i < |s.tags| && s.tags[i].value != tag.value :: r.tags[i] == s.tags[i]
  {
    s.(tags := seq(|s.tags|, i requires 0 <= i < |s.tags| =>
      if s.tags[i].value == tag.value then newTag else s.tags[i]))
  }

  function OtherValue(value: string): Tag -> bool {
    (f: Tag) => f.value != value
  }

  /** `deleteTag`: drops every tag with the given `value`, keeping the rest. */
  function DeleteTag(s: FlowState, tag: Tag): (r: FlowState)
    ensures r.workflow == s.workflow
    ensures forall t | t in r.tags :: t in s.tags && t.value != tag.value
    ensures forall t | t in s.tags && t.value != tag.value :: t in r.tags
    ensures r.tags == Filter(s.tags, OtherValue(tag.value))
  {
    s.(tags := Filter(s.tags, OtherValue(tag.value)))
  }

  /** Updating twice with the same arguments is updating once. */
  lemma UpdateTagIdempotent(s: FlowState, tag: Tag, newTag: Tag)
    ensures UpdateTag(UpdateTag(s, tag, newTag), tag, newTag) == UpdateTag(s, tag, newTag)
  {
    var once := UpdateTag(s, tag, newTag);
    var twice := UpdateTag(once, tag, newTag);
    assert twice.tags == once.tags by {
      forall i | 0 <= i < |s.tags| ensures twice.tags[i] == once.tags[i] {}
    }
  }

  /** An update whose value no tag carries changes nothing. */
  lemma UpdateAbsentTag(s: FlowState, tag: Tag, newTag: Tag)
    requires forall t | t in s.tags :: t.value != tag.value
    ensures UpdateTag(s, tag, newTag) == s
  {
    var r := UpdateTag(s, tag, newTag);
    assert r.tags == s.tags by {
      forall i | 0 <= i < |s.tags| ensures r.tags[i] == s.tags[i] {
        assert s.tags[i] in s.tags;
      }
    }
  }

  lemma DeleteTagIdempotent(s: FlowState, tag: Tag)
    ensures DeleteTag(DeleteTag(s, tag), tag) == DeleteTag(s, tag)
  {
    FilterIdempotent(s.tags, OtherValue(tag.value));
  }

  /** Deleting a tag also removes a copy of it that was just created. */
  lemma DeleteUndoesCreate(s: FlowState, tag: Tag)
    ensures DeleteTag(CreateTag(s, tag), tag) == DeleteTag(s, tag)
  {
    FilterConcat(s.tags, [tag], OtherValue(tag.value));
    assert Filter([tag], OtherValue(tag.value)) == [];
  }

  // ----------------------------------------------------------- nodes & edges

  function SetNodes(s: FlowState, nodes: seq<FlowNode>): (r: FlowState)
    ensures r.tags == s.tags && r.workflow == s.workflow.(nodes := nodes)
  {
    s.(workflow := s.workflow.(nodes := nodes))
  }

  function SetEdges(s: FlowState, edges: seq<FlowEdge>): (r: FlowState)
    ensures r.tags == s.tags && r.workflow == s.workflow.(edges := edges)
  {
    s.(workflow := s.workflow.(edges := edges))
  }

  function OtherNode(id: string): FlowNode -> bool {
    (n: FlowNode) => n.id != id
  }

  function OtherEdge(id: string): FlowEdge -> bool {
    (e: FlowEdge) => e.id != id
  }

  /** `deleteNode`: drops the nodes with the given id and nothing else; the edges
      are left alone. */
  function DeleteNode(s: FlowState, node: FlowNode): (r: FlowState)
    ensures r.tags == s.tags && r.workflow.edges == s.workflow.edges
    ensures r.workflow.sidebar == s.workflow.sidebar
    ensures r.workflow.id == s.workflow.id && r.workflow.name == s.workflow.name
    ensures forall n | n in r.workflow.nodes :: n in s.workflow.nodes && n.id != node.id
    ensures forall n | n in s.workflow.nodes && n.id != node.id :: n in r.workflow.nodes
    ensures r.workflow.nodes == Filter(s.workflow.nodes, OtherNode(node.id))
  {
    s.(workflow := s.workflow.(nodes := Filter(s.workflow.nodes, OtherNode(node.id))))
  }

  /** `deleteEdge`: drops the edges with the given id and nothing else. */
  function DeleteEdge(s: FlowState, edge: FlowEdge): (r: FlowState)
    ensures r.tags == s.tags && r.workflow.nodes == s.workflow.nodes
    ensures r.workflow.sidebar == s.workflow.sidebar
    ensures r.workflow.id == s.workflow.id && r.workflow.name == s.workflow.name
    ensures forall e | e in r.workflow.edges :: e in s.workflow.edges && e.id != edge.id
    ensures forall e | e in s.workflow.edges && e.id != edge.id :: e in r.workflow.edges
    ensures r.workflow.edges == Filter(s.workflow.edges, OtherEdge(edge.id))
  {
    s.(workflow := s.workflow.(edges := Filter(s.workflow.edges, OtherEdge(edge.id))))
  }

  /** Edges into or out of a deleted node survive it, now pointing at no node. */
  lemma DeleteNodeLeavesDanglingEdges(s: FlowState, node: FlowNode)
    ensures forall e | e in s.workflow.edges && e.source == node.id ::
      e in DeleteNode(s, node).workflow.edges
      && forall n | n in DeleteNode(s, node).workflow.nodes :: n.id != e.source
    ensures forall e | e in s.workflow.edges && e.target == node.id ::
      e in DeleteNode(s, node).workflow.edges
      && forall n | n in DeleteNode(s, node).workflow.nodes :: n.id != e.target
  {
  }

  lemma DeleteNodeIdempotent(s: FlowState, node: FlowNode)
    ensures DeleteNode(DeleteNode(s, node), node) == DeleteNode(s, node)
  {
    FilterIdempotent(s.workflow.nodes, OtherNode(node.id));
  }

  lemma DeleteEdgeIdempotent(s: FlowState, edge: FlowEdge)
    ensures DeleteEdge(DeleteEdge(s, edge), edge) == DeleteEdge(s, edge)
  {
    FilterIdempotent(s.workflow.edges, OtherEdge(edge.id));
  }

  /** Deleting an id no node carries changes nothing. */
  lemma DeleteAbsentNode(s: FlowState, node: FlowNode)
    requires forall i | 0 <= i < |s.workflow.nodes| :: s.workflow.nodes[i].id != node.id
    ensures DeleteNode(s, node) == s
  {
    FilterAll(s.workflow.nodes, OtherNode(node.id));
  }

  // ------------------------------------------------------ backend translation

  datatype ConfigEntry = ConfigEntry(name: string, typeName: string, value: Json)
  datatype BackendStep = BackendStep(reactNodeId: string, workflowActionId: Option<int>, config: seq<ConfigEntry>)
  datatype BackendEdge = BackendEdge(source: string, target: string)
  datatype BackendFlow = BackendFlow(name: string, steps: seq<BackendStep>, edges: seq<BackendEdge>)

  /** Start and end nodes have no backend step. */
  predicate IsActionable(n: FlowNode) {
    n.nodeType != Str("start") && n.nodeType != Str("end")
  }

  /** `actionMap[node.type!]`: the type is used as a property key, and a key the map
      lacks reads as `undefined`. */
  function ActionIdFor(actionMap: map<string, int>, nodeType: Json): (r: Option<int>)
    ensures r.Some? <==> PropertyKey(nodeType) in actionMap
    ensures r.Some? ==> r.value == actionMap[PropertyKey(nodeType)]
    ensures nodeType.Str? && nodeType.s in actionMap ==> r == Some(actionMap[nodeType.s])
    ensures nodeType.Undefined? ==> r == (if "undefined" in actionMap then Some(actionMap["undefined"]) else None)
  {
    var key := PropertyKey(nodeType);
    if key in actionMap then Some(actionMap[key]) else None
  }

  /** `Object.entries(data)` mapped to `{name, type: typeof value, value}`. */
  function ConfigOf(data: Json): (r: Result<seq<ConfigEntry>, string>)
    ensures r.Failure? <==> data.Undefined? || data.Null?
    ensures r.Success? ==> |r.value| == |Entries(data).value|
    ensures r.Success? ==> forall i | 0 <= i < |r.value| ::
      && r.value[i].name == Entries(data).value[i].key
      && r.value[i].value == Entries(data).value[i].value
      && r.value[i].typeName == TypeOf(r.value[i].value)
  {
    match Entries(data)
    case Failure(e) => Failure(e)
    case Success(fields) =>
      Success(seq(|fields|, i requires 0 <= i < |fields| =>
        ConfigEntry(fields[i].key, TypeOf(fields[i].value), fields[i].value)))
  }

  /** The object a config list describes. */
  function ConfigRecord(config: seq<ConfigEntry>): Json {
    Obj(seq(|config|, i requires 0 <= i < |config| => Field(config[i].name, config[i].value)))
  }

  /** A node's data object is recovered from its config list. */
  lemma ConfigRebuildsData(data: Json)
    requires data.Obj?
    ensures ConfigOf(data).Success? && ConfigRecord(ConfigOf(data).value) == data
  {
    var c := ConfigOf(data).value;
    assert ConfigRecord(c).fields == data.fields;
  }

  function StepOf(n: FlowNode, actionMap: map<string, int>): (r: Result<BackendStep, string>)
    ensures r.Success? <==> ConfigOf(n.data).Success?
    ensures r.Success? ==> r.value.reactNodeId == n.id
    ensures r.Success? ==> r.value.workflowActionId == ActionIdFor(actionMap, n.nodeType)
    ensures r.Success? ==> r.value.config == ConfigOf(n.data).value
  {
    match ConfigOf(n.data)
    case Failure(e) => Failure(e)
    case Success(config) => Success(BackendStep(n.id, ActionIdFor(actionMap, n.nodeType), config))
  }

  function StepFor(actionMap: map<string, int>): FlowNode -> Result<BackendStep, string> {
    (n: FlowNode) => StepOf(n, actionMap)
  }

  function ActionableNodes(nodes: seq<FlowNode>): seq<FlowNode> {
    Filter(nodes, IsActionable)
  }

  /** Every kept node has data that `Object.entries` accepts. */
  predicate DataReadable(nodes: seq<FlowNode>) {
    forall n | n in nodes && IsActionable(n) :: !n.data.Undefined? && !n.data.Null?
  }

  /** `steps` holds, in order, the step of each node in `kept`. */
  predicate StepsDescribe(kept: seq<FlowNode>, steps: seq<BackendStep>, actionMap: map<string, int>) {
    && |steps| == |kept|
    && forall i | 0 <= i < |kept| ::
      && steps[i].reactNodeId == kept[i].id
      && steps[i].workflowActionId == ActionIdFor(actionMap, kept[i].nodeType)
      && Success(steps[i].config) == ConfigOf(kept[i].data)
  }

  /** `edges` holds, in order, the endpoints of each editor edge. */
  predicate EdgesDescribe(flowEdges: seq<FlowEdge>, edges: seq<BackendEdge>) {
    && |edges| == |flowEdges|
    && forall i | 0 <= i < |flowEdges| :: edges[i] == BackendEdge(flowEdges[i].source, flowEdges[i].target)
  }

  /** The node mapping succeeds exactly when every kept node has readable data, and
      then describes each kept node. */
  lemma StepsOfKept(nodes: seq<FlowNode>, actionMap: map<string, int>)
    ensures MapResults(ActionableNodes(nodes), StepFor(actionMap)).Success? <==> DataReadable(nodes)
    ensures MapResults(ActionableNodes(nodes), StepFor(actionMap)).Success? ==>
      StepsDescribe(ActionableNodes(nodes), MapResults(ActionableNodes(nodes), StepFor(actionMap)).value, actionMap)
  {
    var kept := ActionableNodes(nodes);
    var r := MapResults(kept, StepFor(actionMap));
    if DataReadable(nodes) {
      forall i | 0 <= i < |kept| ensures StepFor(actionMap)(kept[i]).Success? {
        assert kept[i] in kept;
      }
    } else {
      var n :| n in nodes && IsActionable(n) && (n.data.Undefined? || n.data.Null?);
      assert n in kept;
      var i :| 0 <= i < |kept| && kept[i] == n;
      assert StepFor(actionMap)(kept[i]).Failure?;
    }
    if r.Success? {
      forall i | 0 <= i < |kept| ensures Success(r.value[i]) == StepOf(kept[i], actionMap) {
        assert StepFor(actionMap)(kept[i]) == Success(r.value[i]);
      }
    }
  }

  /** `transformFlowStateToBackend`: one step per node that is neither a start nor an
      end node, in order; one `{source, target}` per edge, in order; the name kept. */
  function TransformFlowStateToBackend(w: Workflow, actionMap: map<string, int>): (r: Result<BackendFlow, string>)
    ensures r.Success? <==> DataReadable(w.nodes)
    ensures r.Success? ==> r.value.name == w.name
    ensures r.Success? ==> StepsDescribe(ActionableNodes(w.nodes), r.value.steps, actionMap)
    ensures r.Success? ==> EdgesDescribe(w.edges, r.value.edges)
  {
    StepsOfKept(w.nodes, actionMap);
    match MapResults(ActionableNodes(w.nodes), StepFor(actionMap))
    case Failure(e) => Failure(e)
    case Success(steps) =>
      var edges := seq(|w.edges|, i requires 0 <= i < |w.edges| => BackendEdge(w.edges[i].source, w.edges[i].target));
      Success(BackendFlow(w.name, steps, edges))
  }

  /** Nodes that are only start and end nodes give no steps at all. */
  lemma OnlyStartEndGivesNoSteps(w: Workflow, actionMap: map<string, int>)
    requires forall n | n in w.nodes :: !IsActionable(n)
    ensures TransformFlowStateToBackend(w, actionMap).Success?
    ensures TransformFlowStateToBackend(w, actionMap).value.steps == []
  {
    assert forall i | 0 <= i < |w.nodes| :: w.nodes[i] in w.nodes;
    FilterNone(w.nodes, IsActionable);
  }

  /** Steps of a longer node list extend the steps of its prefix: the kept nodes
      stay in their order. */
  lemma TransformKeepsNodeOrder(w: Workflow, more: seq<FlowNode>, actionMap: map<string, int>)
    requires TransformFlowStateToBackend(w, actionMap).Success?
    requires TransformFlowStateToBackend(w.(nodes := more), actionMap).Success?
    ensures TransformFlowStateToBackend(w.(nodes := w.nodes + more), actionMap).Success?
    ensures TransformFlowStateToBackend(w.(nodes := w.nodes + more), actionMap).value.steps ==
      TransformFlowStateToBackend(w, actionMap).value.steps + TransformFlowStateToBackend(w.(nodes := more), actionMap).value.steps
  {
    FilterConcat(w.nodes, more, IsActionable);
    MapResultsConcat(ActionableNodes(w.nodes), ActionableNodes(more), StepFor(actionMap));
  }
}

=== FILE: get_workflow.dfy ===
/** Loading a stored workflow for the editor: the row with its steps and edges is
    mapped to the editor's workflow shape. The database query is the `row` argument:
    the workflow row with its steps (each joined with its action) and its edges, or
    nothing when no workflow has the id. */
module GetWorkflow {
  import opened Wrappers
  import opened Seqs
  import opened Json
  import opened Decimal
  import opened FlowStore

  datatype ActionRow = ActionRow(name: Option<string>)

  /** A step row as the mapping reads it; the joined action may be missing. */
  datatype StepRow = StepRow(
    id: int, action: Option<ActionRow>, config: Json,
    positionX: Json, positionY: Json, width: Json, height: Json)

  datatype EdgeRow = EdgeRow(id: int, sourceStepId: int, targetStepId: int)

  datatype WorkflowRow = WorkflowRow(id: int, name: Option<string>, steps: seq<StepRow>, edges: seq<EdgeRow>)

  /** Reading `.name` of a step whose joined action is `null` throws. */
  const NullActionMessage := NullReadMessage("name")

  const NotFoundMessage := "error fetching workflow"

  /** The node type is the action's name, `null` when the name is. */
  function NodeTypeOf(a: ActionRow): (t: Json)
    ensures a.name.Some? <==> t.Str?
    ensures a.name.Some? ==> t == Str(a.name.value)
  {
    match a.name
    case Some(s) => Str(s)
    case None => Null
  }

  function NodeOf(step: StepRow): (r: Result<FlowNode, string>)
    ensures r.Failure? <==> step.action.None?
    ensures r.Failure? ==> r.error == NullActionMessage
    ensures r.Success? ==>
      && r.value.id == IntToString(step.id)
      && r.value.nodeType == NodeTypeOf(step.action.value)
      && r.value.data == step.config
      && r.value.position == Position(step.positionX, step.positionY)
      && r.value.measured == Measured(step.width, step.height)
      && !r.value.selected && !r.value.dragging
  {
    match step.action
    case None => Failure(NullActionMessage)
    case Some(action) =>
      Success(FlowNode(IntToString(step.id), NodeTypeOf(action), step.config,
        Position(step.positionX, step.positionY), false, Measured(step.width, step.height), false))
  }

  function NodeFor(): StepRow -> Result<FlowNode, string> {
    (step: StepRow) => NodeOf(step)
  }

  function EdgeOf(e: EdgeRow): (f: FlowEdge)
    ensures f.id == IntToString(e.id)
    ensures f.source == IntToString(e.sourceStepId) && f.target == IntToString(e.targetStepId)
    ensures f.edgeType == Str("deletable")
  {
    FlowEdge(IntToString(e.id), IntToString(e.sourceStepId), IntToString(e.targetStepId), Str("deletable"))
  }

  /** `mapWorkflowToReactFlow`: no row gives `null`; otherwise one node per step and
      one edge per edge row, in order, with the name defaulted and the sidebar on the
      available nodes. */
  function MapWorkflowToReactFlow(row: Option<WorkflowRow>): (r: Result<Option<Workflow>, string>)
    ensures row.None? ==> r == Success(None)
    ensures row.Some? ==> (r.Failure? <==> exists i | 0 <= i < |row.value.steps| :: row.value.steps[i].action.None?)
    ensures r.Failure? ==> r.error == NullActionMessage
    ensures row.Some? && r.Success? ==> r.value.Some? && LoadedFrom(row.value, r.value.value)
  {
    match row
    case None => Success(None)
    case Some(w) =>
      var edges := seq(|w.edges|, i requires 0 <= i < |w.edges| => EdgeOf(w.edges[i]));
      match MapResults(w.steps, NodeFor())
      case Failure(e) => Failure(e)
      case Success(nodes) =>
        Success(Some(Workflow(IntToString(w.id), w.name.GetOr("no name"), nodes, edges,
          Sidebar(PanelName(AvailableNodes), SelectedNull))))
  }

  /** `flow` is the editor shape of `w`: the id and name, each step and edge row in
      order, and a sidebar listing the available nodes with nothing selected. */
  ghost predicate LoadedFrom(w: WorkflowRow, flow: Workflow) {
    && flow.id == IntToString(w.id)
    && flow.name == (if w.name.Some? then w.name.value else "no name")
    && |flow.nodes| == |w.steps|
    && (forall i | 0 <= i < |w.steps| :: NodeOf(w.steps[i]) == Success(flow.nodes[i]))
    && |flow.edges| == |w.edges|
    && (forall i | 0 <= i < |w.edges| :: flow.edges[i] == EdgeOf(w.edges[i]))
    && flow.sidebar == Sidebar("available-nodes", SelectedNull)
  }

  /** `getWorkflowByIdWithEdgesAndSteps`: throws when the query finds nothing. */
  function GetWorkflowByIdWithEdgesAndSteps(row: Option<WorkflowRow>): (r: Result<WorkflowRow, string>)
    ensures r.Failure? <==> row.None?
    ensures r.Failure? ==> r.error == NotFoundMessage
    ensures r.Success? ==> r.value == row.value
  {
    match row
    case None => Failure(NotFoundMessage)
    case Some(w) => Success(w)
  }

  /** `getWorkflowForClient`: although declared to return `null` for a missing
      workflow, it throws instead, so a result it returns is never `null`. */
  function GetWorkflowForClient(row: Option<WorkflowRow>): (r: Result<Option<Workflow>, string>)
    ensures row.None? ==> r == Failure(NotFoundMessage)
    ensures r.Success? ==> r.value.Some?
    ensures row.Some? ==> r == MapWorkflowToReactFlow(row)
  {
    match GetWorkflowByIdWithEdgesAndSteps(row)
    case Failure(e) => Failure(e)
    case Success(w) => MapWorkflowToReactFlow(Some(w))
  }

  function StepIds(w: WorkflowRow): (ids: seq<int>)
    ensures |ids| == |w.steps| && forall i | 0 <= i < |w.steps| :: ids[i] == w.steps[i].id
  {
    seq(|w.steps|, i requires 0 <= i < |w.steps| => w.steps[i].id)
  }

  /** A loaded edge points at a loaded node exactly when its stored endpoint is the id
      of a stored step: the decimal rendering of ids is one-to-one. */
  lemma LoadedEdgeEndpoints(w: WorkflowRow, flow: Workflow, i: nat)
    requires LoadedFrom(w, flow) && i < |w.edges|
    ensures flow.edges[i].source in NodeIds(flow.nodes) <==> w.edges[i].sourceStepId in StepIds(w)
    ensures flow.edges[i].target in NodeIds(flow.nodes) <==> w.edges[i].targetStepId in StepIds(w)
  {
    var e := w.edges[i];
    var ids := NodeIds(flow.nodes);
    forall k | 0 <= k < |w.steps| ensures ids[k] == IntToString(w.steps[k].id) {
      assert NodeOf(w.steps[k]) == Success(flow.nodes[k]);
    }
    if flow.edges[i].source in ids {
      var k :| 0 <= k < |ids| && ids[k] == flow.edges[i].source;
      IntToStringInjective(w.steps[k].id, e.sourceStepId);
      assert StepIds(w)[k] == e.sourceStepId;
    }
    if e.sourceStepId in StepIds(w) {
      var k :| 0 <= k < |w.steps| && StepIds(w)[k] == e.sourceStepId;
      assert ids[k] == flow.edges[i].source;
    }
    if flow.edges[i].target in ids {
      var k :| 0 <= k < |ids| && ids[k] == flow.edges[i].target;
      IntToStringInjective(w.steps[k].id, e.targetStepId);
      assert StepIds(w)[k] == e.targetStepId;
    }
    if e.targetStepId in StepIds(w) {
      var k :| 0 <= k < |w.steps| && StepIds(w)[k] == e.targetStepId;
      assert ids[k] == flow.edges[i].target;
    }
  }

  /** Loaded node ids repeat exactly when stored step ids do. */
  lemma LoadedNodeIdsDistinct(w: WorkflowRow, flow: Workflow)
    requires LoadedFrom(w, flow)
    ensures Distinct(NodeIds(flow.nodes)) <==> Distinct(StepIds(w))
  {
    var ids := NodeIds(flow.nodes);
    forall k | 0 <= k < |w.steps| ensures ids[k] == IntToString(w.steps[k].id) {
      assert NodeOf(w.steps[k]) == Success(flow.nodes[k]);
    }
    forall a, b | 0 <= a < |ids| && 0 <= b < |ids| && ids[a] == ids[b]
      ensures StepIds(w)[a] == StepIds(w)[b]
    {
      IntToStringInjective(w.steps[a].id, w.steps[b].id);
    }
  }

  /** `transformFlowStateToBackend` of a loaded workflow describes every stored edge
      with its endpoints rendered as the loaded node ids. */
  lemma ReloadedEdgesKeepEndpoints(w: WorkflowRow, flow: Workflow, actionMap: map<string, int>)
    requires LoadedFrom(w, flow)
    requires TransformFlowStateToBackend(flow, actionMap).Success?
    ensures forall i | 0 <= i < |w.edges| ::
      TransformFlowStateToBackend(flow, actionMap).value.edges[i] ==
        BackendEdge(IntToString(w.edges[i].sourceStepId), IntToString(w.edges[i].targetStepId))
  {
  }

  /** The editor data of a loaded step is the stored config itself. Stored as a list
      of entries, it is read back as an array, so `transformFlowStateToBackend`
      describes that array: one entry per element, named by its index (the key that
      reads the element back) and typed by the element's `typeof`. */
  lemma StoredConfigComesBackIndexed(step: StepRow, node: FlowNode, entries: seq<Json>)
    requires NodeOf(step) == Success(node)
    requires step.config == Arr(entries)
    ensures ArrayConfig(node.data, entries)
  {
    assert node.data == Arr(entries);
    ArrayConfigOf(entries);
  }

  /** `transformFlowStateToBackend`'s config for `data`, the array `entries`: one entry
      per element, named by its index (the key that reads the element back) and typed
      by the element's `typeof`, which is "object" for a stored config entry. */
  ghost predicate ArrayConfig(data: Json, entries: seq<Json>) {
    && ConfigOf(data).Success?
    && |ConfigOf(data).value| == |entries|
    && (forall i | 0 <= i < |entries| ::
         ConfigOf(data).value[i].name == NatToString(i) && ConfigOf(data).value[i].value == entries[i])
    && (forall i | 0 <= i < |entries| :: ConfigOf(data).value[i].typeName == TypeOf(entries[i]))
    && (forall i | 0 <= i < |entries| :: PropertyOf(data, ConfigOf(data).value[i].name) == entries[i])
  }

  lemma ArrayConfigOf(entries: seq<Json>)
    ensures ArrayConfig(Arr(entries), entries)
  {
    forall i | 0 <= i < |entries| {
      ArrayConfigAt(entries, i);
    }
  }

  lemma ArrayConfigAt(entries: seq<Json>, i: nat)
    requires i < |entries|
    ensures ConfigOf(Arr(entries)).Success? && |ConfigOf(Arr(entries)).value| == |entries|
    ensures ConfigOf(Arr(entries)).value[i].name == NatToString(i)
    ensures ConfigOf(Arr(entries)).value[i].value == entries[i]
    ensures ConfigOf(Arr(entries)).value[i].typeName == TypeOf(entries[i])
    ensures PropertyOf(Arr(entries), ConfigOf(Arr(entries)).value[i].name) == entries[i]
  {
    ArrayEntryAt(entries, i);
    ArrayIndexProperty(entries, i);
  }

  lemma ArrayEntryAt(entries: seq<Json>, i: nat)
    requires i < |entries|
    ensures ConfigOf(Arr(entries)).Success? && |ConfigOf(Arr(entries)).value| == |entries|
    ensures ConfigOf(Arr(entries)).value[i] == ConfigEntry(NatToString(i), TypeOf(entries[i]), entries[i])
  {
    var c := ConfigOf(Arr(entries)).value;
    var f := Entries(Arr(entries)).value;
    assert f[i] == Field(NatToString(i), entries[i]);
  }

}

=== FILE: graph.dfy ===
/** The workflow graph as the execution engine sees it: step ids and directed
    step edges, the in-degree bookkeeping Kahn's algorithm keeps, and the
    graph-level notions (cycle, topological order) its result is judged by. */
module Graph {
  import opened Seqs

  /** One row of the step-edge table: `sourceStepId` must run before `targetStepId`. */
  datatype StepEdge = StepEdge(sourceStepId: int, targetStepId: int)

  /** Every edge endpoint names a declared step (the sort dereferences the source's
      adjacency list unguarded). */
  predicate EndpointsKnown(steps: seq<int>, edges: seq<StepEdge>) {
    forall e | e in edges :: e.sourceStepId in steps && e.targetStepId in steps
  }

  /** Number of edges into `v` whose source is not yet in `done`. */
  function InFrom(edges: seq<StepEdge>, v: int, done: set<int>): nat
    decreases |edges|
  {
    if |edges| == 0 then 0
    else
      var e := edges[|edges| - 1];
      InFrom(edges[..|edges| - 1], v, done) + (if e.targetStepId == v && e.sourceStepId !in done then 1 else 0)
  }

  /** Number of edges into `v`. */
  function InDegree(edges: seq<StepEdge>, v: int): nat {
    InFrom(edges, v, {})
  }

  /** Targets of the edges leaving `u`, in edge order (the adjacency list of `u`). */
  function Targets(edges: seq<StepEdge>, u: int): seq<int>
    decreases |edges|
  {
    if |edges| == 0 then []
    else
      var e := edges[|edges| - 1];
      Targets(edges[..|edges| - 1], u) + (if e.sourceStepId == u then [e.targetStepId] else [])
  }

  /** The steps among `keys` that have no incoming edge, in the order of `keys`. */
  function ZeroIn(keys: seq<int>, edges: seq<StepEdge>): seq<int>
    decreases |keys|
  {
    if |keys| == 0 then []
    else ZeroIn(keys[..|keys| - 1], edges) + (if InDegree(edges, keys[|keys| - 1]) == 0 then [keys[|keys| - 1]] else [])
  }

  /** The steps the sort emits first: the zero in-degree ones, in declaration order. */
  function Seed(steps: seq<int>, edges: seq<StepEdge>): seq<int> {
    ZeroIn(Dedup(steps), edges)
  }

  /** For every edge, the source sits at an earlier position than the target. */
  predicate RespectsEdges(edges: seq<StepEdge>, order: seq<int>) {
    forall e, a, b | e in edges && 0 <= a < |order| && 0 <= b < |order|
                     && order[a] == e.sourceStepId && order[b] == e.targetStepId :: a < b
  }

  /** Every step exactly once, and every edge pointing forward. */
  predicate IsTopologicalOrder(steps: seq<int>, edges: seq<StepEdge>, order: seq<int>) {
    && |order| == |steps|
    && Distinct(order)
    && Elems(order) == Elems(steps)
    && RespectsEdges(edges, order)
  }

  ghost predicate IsCycle(edges: seq<StepEdge>, p: seq<int>) {
    && |p| >= 2
    && p[0] == p[|p| - 1]
    && forall i | 0 <= i < |p| - 1 :: StepEdge(p[i], p[i + 1]) in edges
  }

  ghost predicate HasCycle(edges: seq<StepEdge>) {
    exists p :: IsCycle(edges, p)
  }

  // ---------------------------------------------------------------------------
  // Counting lemmas

  lemma {:induction false} InFromAdd(edges: seq<StepEdge>, v: int, done: set<int>, u: int)
    requires u !in done
    ensures InFrom(edges, v, done) == InFrom(edges, v, done + {u}) + multiset(Targets(edges, u))[v]
    decreases |edges|
  {
    if |edges| > 0 {
      InFromAdd(edges[..|edges| - 1], v, done, u);
    }
  }

  lemma {:induction false} InFromZero(edges: seq<StepEdge>, v: int, done: set<int>)
    requires InFrom(edges, v, done) == 0
    ensures forall e | e in edges && e.targetStepId == v :: e.sourceStepId in done
    decreases |edges|
  {
    if |edges| > 0 {
      var p := edges[..|edges| - 1];
      InFromZero(p, v, done);
      assert edges == p + [edges[|edges| - 1]];
    }
  }

  lemma {:induction false} InFromPositive(edges: seq<StepEdge>, v: int, done: set<int>)
    requires InFrom(edges, v, done) > 0
    ensures exists e :: e in edges && e.targetStepId == v && e.sourceStepId !in done
    decreases |edges|
  {
    var p := edges[..|edges| - 1];
    var last := edges[|edges| - 1];
    assert edges == p + [last];
    if !(last.targetStepId == v && last.sourceStepId !in done) {
      InFromPositive(p, v, done);
      var e :| e in p && e.targetStepId == v && e.sourceStepId !in done;
      assert e in edges;
    }
  }

  lemma {:induction false} TargetsAreEdges(edges: seq<StepEdge>, u: int)
    ensures forall x | x in Targets(edges, u) :: StepEdge(u, x) in edges
    decreases |edges|
  {
    if |edges| > 0 {
      var p := edges[..|edges| - 1];
      TargetsAreEdges(p, u);
      assert edges == p + [edges[|edges| - 1]];
    }
  }

  lemma {:induction false} ZeroInMembers(keys: seq<int>, edges: seq<StepEdge>)
    ensures forall v :: v in ZeroIn(keys, edges) <==> v in keys && InDegree(edges, v) == 0
    ensures Distinct(keys) ==> Distinct(ZeroIn(keys, edges))
    decreases |keys|
  {
    if |keys| > 0 {
      var p := keys[..|keys| - 1];
      var x := keys[|keys| - 1];
      assert keys == p + [x];
      ZeroInMembers(p, edges);
      if Distinct(keys) {
        assert Distinct(p) by {
          forall i, j | 0 <= i < |p| && 0 <= j < |p| && i != j ensures p[i] != p[j] {
            assert p[i] == keys[i] && p[j] == keys[j];
          }
        }
        assert x !in p;
        if InDegree(edges, x) == 0 {
          DistinctConcat(ZeroIn(p, edges), [x]);
        }
      }
    }
  }

  // ---------------------------------------------------------------------------
  // Orders and cycles

  /** Along any path, positions in an edge-respecting order strictly increase. */
  lemma {:induction false} PathClimbs(edges: seq<StepEdge>, order: seq<int>, p: seq<int>, k: nat)
    requires RespectsEdges(edges, order)
    requires 1 <= k < |p|
    requires forall i | 0 <= i < |p| :: p[i] in order
    requires forall i | 0 <= i < |p| - 1 :: StepEdge(p[i], p[i + 1]) in edges
    ensures IndexOf(order, p[0]) < IndexOf(order, p[k])
    decreases k
  {
    var e := StepEdge(p[k - 1], p[k]);
    assert e in edges;
    var a, b := IndexOf(order, p[k - 1]), IndexOf(order, p[k]);
    assert order[a] == e.sourceStepId && order[b] == e.targetStepId;
    if k > 1 {
      PathClimbs(edges, order, p, k - 1);
    }
  }

  /** A graph whose edges an order over all its endpoints respects has no cycle. */
  lemma OrderedHasNoCycle(edges: seq<StepEdge>, order: seq<int>)
    requires RespectsEdges(edges, order)
    requires forall e | e in edges :: e.sourceStepId in order && e.targetStepId in order
    ensures !HasCycle(edges)
  {
    if HasCycle(edges) {
      var p :| IsCycle(edges, p);
      forall i | 0 <= i < |p| ensures p[i] in order {
        if i < |p| - 1 {
          assert StepEdge(p[i], p[i + 1]) in edges;
        } else {
          assert StepEdge(p[i - 1], p[i]) in edges;
        }
      }
      PathClimbs(edges, order, p, |p| - 1);
    }
  }

  /** Some edge enters `v` from a step of `from`. */
  ghost predicate EnteredFrom(edges: seq<StepEdge>, v: int, from: set<int>) {
    exists e :: e in edges && e.targetStepId == v && e.sourceStepId in from
  }

  /** A backward walk: each element is entered by an edge from the next one. */
  ghost predicate BackWalk(edges: seq<StepEdge>, w: seq<int>) {
    forall i | 0 <= i < |w| - 1 :: StepEdge(w[i + 1], w[i]) in edges
  }

  /** A backward walk that revisits a step contains a cycle. */
  lemma CycleFromRepeat(edges: seq<StepEdge>, w: seq<int>, i: nat, j: nat)
    requires BackWalk(edges, w)
    requires i < j < |w| && w[i] == w[j]
    ensures HasCycle(edges)
  {
    var p := seq(j - i + 1, t requires 0 <= t <= j - i => w[j - t]);
    forall t | 0 <= t < |p| - 1
      ensures StepEdge(p[t], p[t + 1]) in edges
    {
      assert p[t] == w[j - t] && p[t + 1] == w[j - t - 1];
    }
    assert IsCycle(edges, p);
  }

  /** Inside a set where every step has an incoming edge from the set, a backward
      walk of any length can be built. */
  lemma LongBackWalk(edges: seq<StepEdge>, stuck: set<int>, v: int, n: nat) returns (w: seq<int>)
    requires v in stuck
    requires forall v | v in stuck :: EnteredFrom(edges, v, stuck)
    ensures |w| == n + 1 && Elems(w) <= stuck && BackWalk(edges, w)
  {
    w := [v];
    while |w| <= n
      invariant 1 <= |w| <= n + 1
      invariant Elems(w) <= stuck
      invariant BackWalk(edges, w)
      decreases n + 1 - |w|
    {
      var last := w[|w| - 1];
      assert last in Elems(w);
      assert EnteredFrom(edges, last, stuck);
      var e :| e in edges && e.targetStepId == last && e.sourceStepId in stuck;
      assert e == StepEdge(e.sourceStepId, last);
      w := w + [e.sourceStepId];
    }
  }

  /** If every step of a non-empty set has an incoming edge from inside the set,
      walking those edges backwards must revisit a step: the graph has a cycle. */
  lemma CycleFromUnsatisfied(edges: seq<StepEdge>, stuck: set<int>, v: int)
    requires v in stuck
    requires forall v | v in stuck :: EnteredFrom(edges, v, stuck)
    ensures HasCycle(edges)
  {
    var w := LongBackWalk(edges, stuck, v, |stuck|);
    ElemsCardBound(w);
    SubsetCard(Elems(w), stuck);
    assert !Distinct(w);
    var i, j :| 0 <= i < |w| && 0 <= j < |w| && i != j && w[i] == w[j];
    if i < j {
      CycleFromRepeat(edges, w, i, j);
    } else {
      CycleFromRepeat(edges, w, j, i);
    }
  }
}

=== FILE: inputs.dfy ===
/** `resolveStepInputs`: turns a step's typed config list into a name-to-value
    record, reading step-output references from the run-scoped outputs. */
module Inputs {
  import opened Json

  datatype LiteralType = StringType | NumberType | BooleanType | ArrayType

  /** One `WorkflowActionInput` entry. For the literal kinds, `value` is what the
      resolver reads as `.value` (possibly `undefined`). */
  datatype ActionInput =
    | Literal(name: string, kind: LiteralType, value: Json)
    | StepOutput(name: string, stepId: int, outputKey: string)
    | WorkflowInput(name: string, inputKey: string)

  /** The outputs recorded so far in a run, keyed by step id. */
  type StepOutputs = map<int, Json>

  /** Entries of every kind except `workflowInput` write their name. */
  predicate Binds(input: ActionInput, key: string) {
    !input.WorkflowInput? && input.name == key
  }

  /** The value a binding entry writes: the literal itself, or
      `stepOutputs[stepId]?.[outputKey]`. */
  function EntryValue(input: ActionInput, outputs: StepOutputs): Json
    requires !input.WorkflowInput?
  {
    match input
    case Literal(_, _, v) => v
    case StepOutput(_, id, key) => if id in outputs then PropertyOf(outputs[id], key) else Undefined
  }

  /** Entry `i` is the last one in `config` that writes `key`. */
  predicate LastBinding(config: seq<ActionInput>, i: int, key: string) {
    && 0 <= i < |config|
    && Binds(config[i], key)
    && forall j | i < j < |config| :: !Binds(config[j], key)
  }

  /** Some entry of `config` writes `key`. */
  predicate Written(config: seq<ActionInput>, key: string) {
    exists i | 0 <= i < |config| :: Binds(config[i], key)
  }

  function ResolveStepInputs(config: seq<ActionInput>, outputs: StepOutputs): (r: map<string, Json>)
    ensures forall k :: k in r <==> Written(config, k)
    ensures forall i, k | LastBinding(config, i, k) :: k in r && r[k] == EntryValue(config[i], outputs)
    decreases |config|
  {
    if |config| == 0 then map[]
    else
      var n := |config| - 1;
      var prior := ResolveStepInputs(config[..n], outputs);
      var input := config[n];
      var r := if input.WorkflowInput? then prior else prior[input.name := EntryValue(input, outputs)];
      ResolveStep(config, config[..n], outputs, prior, r);
      r
  }

  /** One more entry: the record of `config` is the record of all but its last
      entry, updated by that entry. */
  lemma ResolveStep(config: seq<ActionInput>, prefix: seq<ActionInput>, outputs: StepOutputs, prior: map<string, Json>, r: map<string, Json>)
    requires |config| > 0 && prefix == config[..|config| - 1]
    requires forall k :: k in prior <==> Written(prefix, k)
    requires forall i, k | LastBinding(prefix, i, k) :: k in prior && prior[k] == EntryValue(prefix[i], outputs)
    requires r == if config[|config| - 1].WorkflowInput? then prior
                  else prior[config[|config| - 1].name := EntryValue(config[|config| - 1], outputs)]
    ensures forall k :: k in r <==> Written(config, k)
    ensures forall i, k | LastBinding(config, i, k) :: k in r && r[k] == EntryValue(config[i], outputs)
  {
    var n := |prefix|;
    var input := config[n];
    assert forall i | 0 <= i < n :: prefix[i] == config[i];
    WrittenStep(config, prefix);
    forall i, k | LastBinding(config, i, k)
      ensures k in r && r[k] == EntryValue(config[i], outputs)
    {
      if i < n {
        assert LastBinding(prefix, i, k) && !Binds(input, k);
      }
    }
  }

  /** A key is written by `config` exactly when its prefix or its last entry writes it. */
  lemma WrittenStep(config: seq<ActionInput>, prefix: seq<ActionInput>)
    requires |config| > 0 && prefix == config[..|config| - 1]
    ensures forall k :: Written(config, k) <==> Written(prefix, k) || Binds(config[|config| - 1], k)
  {
    assert forall i | 0 <= i < |prefix| :: prefix[i] == config[i];
  }

  /** A `workflowInput` entry contributes nothing. */
  lemma WorkflowInputIgnored(config: seq<ActionInput>, outputs: StepOutputs, name: string, inputKey: string)
    ensures ResolveStepInputs(config + [WorkflowInput(name, inputKey)], outputs) == ResolveStepInputs(config, outputs)
  {
    assert (config + [WorkflowInput(name, inputKey)])[..|config|] == config;
  }

  /** A reference to a step with no recorded output resolves to `undefined` rather
      than failing. */
  lemma MissingOutputIsUndefined(config: seq<ActionInput>, outputs: StepOutputs, i: int)
    requires 0 <= i < |config| && config[i].StepOutput?
    requires config[i].stepId !in outputs
    requires LastBinding(config, i, config[i].name)
    ensures ResolveStepInputs(config, outputs)[config[i].name] == Undefined
  {
  }

  /** Referencing an output's `length` reads the array's or string's length, an own
      property that `Object.entries` does not list. */
  lemma ReferencedLength(config: seq<ActionInput>, outputs: StepOutputs, i: int)
    requires 0 <= i < |config| && config[i].StepOutput? && LastBinding(config, i, config[i].name)
    requires config[i].stepId in outputs && config[i].outputKey == "length"
    ensures outputs[config[i].stepId].Arr? ==>
      ResolveStepInputs(config, outputs)[config[i].name] == Num(|outputs[config[i].stepId].items|)
    ensures outputs[config[i].stepId].Str? ==>
      ResolveStepInputs(config, outputs)[config[i].name] == Num(|outputs[config[i].stepId].s|)
  {
  }

  /** The resolved record only depends on the outputs of the steps the config
      refers to. */
  lemma {:induction false} ResolveReadsOnlyReferencedOutputs(config: seq<ActionInput>, a: StepOutputs, b: StepOutputs)
    requires forall i | 0 <= i < |config| && config[i].StepOutput? ::
               (config[i].stepId in a <==> config[i].stepId in b)
               && (config[i].stepId in a ==> a[config[i].stepId] == b[config[i].stepId])
    ensures ResolveStepInputs(config, a) == ResolveStepInputs(config, b)
    decreases |config|
  {
    if |config| > 0 {
      var p := config[..|config| - 1];
      assert forall i | 0 <= i < |p| :: p[i] == config[i];
      ResolveReadsOnlyReferencedOutputs(p, a, b);
    }
  }
}

=== FILE: insert_flow.dfy ===
/** The `insertFlow` mutation: inside one transaction it inserts the workflow row,
    one step row per node that is neither a start nor an end node, and one edge row
    per editor edge whose two endpoints both received a step. The database is an
    oracle: the workflow insert returns an id or nothing, and the `k`-th step insert
    of the transaction returns `stepRow(k)`. */
module InsertFlow {
  import opened Wrappers
  import opened Seqs
  import opened Json
  import opened Graph
  import opened FlowStore

  /** What the input schema guarantees about the fields this mutation reads: every
      node has a string type and a record as its data. */
  predicate ParsedInput(w: Workflow) {
    forall i | 0 <= i < |w.nodes| :: w.nodes[i].nodeType.Str? && w.nodes[i].data.Obj?
  }

  /** The column type recorded for a config value: anything that is neither a string
      nor a boolean is recorded as a number. */
  function InsertTypeName(v: Json): (t: string)
    ensures t in {"string", "boolean", "number"}
    ensures t == "string" <==> v.Str?
    ensures t == "boolean" <==> v.Bool?
  {
    if v.Str? then "string" else if v.Bool? then "boolean" else "number"
  }

  function InsertConfig(fields: seq<Field>): (c: seq<ConfigEntry>)
    ensures |c| == |fields|
    ensures forall i | 0 <= i < |fields| ::
      c[i].name == fields[i].key && c[i].value == fields[i].value && c[i].typeName == InsertTypeName(fields[i].value)
  {
    seq(|fields|, i requires 0 <= i < |fields| =>
      ConfigEntry(fields[i].key, InsertTypeName(fields[i].value), fields[i].value))
  }

  datatype StepInsert = StepInsert(
    workflowId: int, config: seq<ConfigEntry>, outputValues: Option<ConfigEntry>,
    reactNodeId: string, workflowActionId: int)

  datatype EdgeInsert = EdgeInsert(workflowId: int, sourceStepId: int, targetStepId: int)

  datatype Outcome =
    | RolledBack
    | Committed(workflowId: int, name: string, steps: seq<StepInsert>, edges: seq<EdgeInsert>)

  /** The row inserted for a node: its data as a typed config list, the first entry
      (when there is one) as the output values, and action id 1. */
  function StepInsertFor(n: FlowNode, workflowId: int): (s: StepInsert)
    requires n.data.Obj?
    ensures s.reactNodeId == n.id && s.workflowActionId == 1 && s.workflowId == workflowId
    ensures s.config == InsertConfig(n.data.fields)
    ensures s.outputValues == if |s.config| == 0 then None else Some(s.config[0])
  {
    var config := InsertConfig(n.data.fields);
    StepInsert(workflowId, config, if |config| == 0 then None else Some(config[0]), n.id, 1)
  }

  /** The step rows for `kept`, in order. */
  function StepInserts(kept: seq<FlowNode>, workflowId: int): (r: seq<StepInsert>)
    requires forall k | 0 <= k < |kept| :: kept[k].data.Obj?
    ensures |r| == |kept| && forall k | 0 <= k < |kept| :: r[k] == StepInsertFor(kept[k], workflowId)
  {
    seq(|kept|, k requires 0 <= k < |kept| && kept[k].data.Obj? => StepInsertFor(kept[k], workflowId))
  }

  /** Every step insert for these nodes returned an id. */
  predicate AllInserted(count: nat, stepRow: nat -> Option<int>) {
    forall k: nat | k < count :: stepRow(k).Some?
  }

  /** The ids the first `n` step inserts returned. */
  function ReturnedIds(n: nat, stepRow: nat -> Option<int>): (ids: seq<int>)
    requires AllInserted(n, stepRow)
    ensures |ids| == n && forall k | 0 <= k < n :: stepRow(k) == Some(ids[k])
  {
    seq(n, k requires 0 <= k < n && stepRow(k).Some? => stepRow(k).value)
  }

  /** `stepIdMap` after recording `ids[k]` under `keys[k]` for each `k` in turn: its
      keys are the node ids, and an id carried by several nodes keeps the step id
      recorded last. */
  function IdMap(keys: seq<string>, ids: seq<int>): (m: map<string, int>)
    requires |keys| == |ids|
    ensures m.Keys == Elems(keys)
    ensures forall i | 0 <= i < |keys| && LastOccurrence(keys, i) :: m[keys[i]] == ids[i]
    decreases |keys|
  {
    if |keys| == 0 then map[]
    else
      var n := |keys| - 1;
      assert keys == keys[..n] + [keys[n]];
      IdMap(keys[..n], ids[..n])[keys[n] := ids[n]]
  }

  predicate BothMapped(m: map<string, int>, e: FlowEdge) {
    e.source in m && e.target in m
  }

  function MappedIn(m: map<string, int>): FlowEdge -> bool {
    (e: FlowEdge) => BothMapped(m, e)
  }

  /** The edge rows: the editor edges whose endpoints both have a step, in order,
      carrying the mapped step ids. */
  function EdgeInserts(edges: seq<FlowEdge>, m: map<string, int>, workflowId: int): (r: seq<EdgeInsert>)
    ensures |r| == |Filter(edges, MappedIn(m))|
    ensures forall i | 0 <= i < |r| ::
      var e := Filter(edges, MappedIn(m))[i];
      e in edges && BothMapped(m, e) && r[i] == EdgeInsert(workflowId, m[e.source], m[e.target])
  {
    var kept := Filter(edges, MappedIn(m));
    assert forall i | 0 <= i < |kept| :: kept[i] in edges && BothMapped(m, kept[i]) by {
      forall i | 0 <= i < |kept| ensures kept[i] in edges && BothMapped(m, kept[i]) {
        assert kept[i] in kept;
      }
    }
    seq(|kept|, i requires 0 <= i < |kept| =>
      EdgeInsert(workflowId, m[kept[i].source], m[kept[i].target]))
  }

  /** The step inserts in node order; `None` once an insert returns nothing. */
  method InsertSteps(kept: seq<FlowNode>, workflowId: int, stepRow: nat -> Option<int>)
    returns (r: Option<(seq<StepInsert>, map<string, int>)>)
    requires forall k | 0 <= k < |kept| :: kept[k].data.Obj?
    ensures r.None? <==> !AllInserted(|kept|, stepRow)
    ensures r.Some? ==>
      && AllInserted(|kept|, stepRow)
      && r.value.0 == StepInserts(kept, workflowId)
      && r.value.1 == IdMap(NodeIds(kept), ReturnedIds(|kept|, stepRow))
  {
    var stepIdMap: map<string, int> := map[];
    var steps: seq<StepInsert> := [];
    var ids: seq<int> := [];
    var k := 0;
    while k < |kept|
      invariant 0 <= k <= |kept|
      invariant AllInserted(k, stepRow)
      invariant ids == ReturnedIds(k, stepRow)
      invariant steps == StepInserts(kept[..k], workflowId)
      invariant stepIdMap == IdMap(NodeIds(kept[..k]), ids)
    {
      var node := kept[k];
      var step := StepInsertFor(node, workflowId);
      var id := stepRow(k);
      if id.None? {
        return None;
      }
      InsertStepsStep(kept, k, workflowId, stepRow);
      stepIdMap := stepIdMap[node.id := id.value];
      ids := ids + [id.value];
      steps := steps + [step];
      k := k + 1;
    }
    assert kept[..k] == kept;
    return Some((steps, stepIdMap));
  }

  /** One more successful insert extends the returned ids and `stepIdMap`. */
  lemma InsertStepsStep(kept: seq<FlowNode>, k: nat, workflowId: int, stepRow: nat -> Option<int>)
    requires k < |kept| && AllInserted(k + 1, stepRow)
    requires forall j | 0 <= j < |kept| :: kept[j].data.Obj?
    ensures StepInserts(kept[..k + 1], workflowId) == StepInserts(kept[..k], workflowId) + [StepInsertFor(kept[k], workflowId)]
    ensures ReturnedIds(k + 1, stepRow) == ReturnedIds(k, stepRow) + [stepRow(k).value]
    ensures IdMap(NodeIds(kept[..k + 1]), ReturnedIds(k + 1, stepRow)) ==
      IdMap(NodeIds(kept[..k]), ReturnedIds(k, stepRow))[kept[k].id := stepRow(k).value]
  {
    var keys := NodeIds(kept[..k + 1]);
    assert keys[..k] == NodeIds(kept[..k]);
    assert ReturnedIds(k + 1, stepRow)[..k] == ReturnedIds(k, stepRow);
  }

  /** The edge inserts, in edge order, skipping edges with an unmapped endpoint. */
  method InsertEdges(edges: seq<FlowEdge>, stepIdMap: map<string, int>, workflowId: int)
    returns (r: seq<EdgeInsert>)
    ensures r == EdgeInserts(edges, stepIdMap, workflowId)
  {
    r := [];
    var i := 0;
    while i < |edges|
      invariant 0 <= i <= |edges|
      invariant r == EdgeInserts(edges[..i], stepIdMap, workflowId)
    {
      var edge := edges[i];
      EdgeInsertsStep(edges, i, stepIdMap, workflowId);
      if edge.source in stepIdMap && edge.target in stepIdMap {
        r := r + [EdgeInsert(workflowId, stepIdMap[edge.source], stepIdMap[edge.target])];
      }
      i := i + 1;
    }
    assert edges[..i] == edges;
  }

  /** The transaction: a missing workflow id or step id rolls everything back. */
  method InsertFlow(input: Workflow, workflowRow: Option<int>, stepRow: nat -> Option<int>) returns (r: Outcome)
    requires ParsedInput(input)
    ensures r.RolledBack? <==> workflowRow.None? || !AllInserted(|ActionableNodes(input.nodes)|, stepRow)
    ensures r.Committed? ==> r.workflowId == workflowRow.value && r.name == input.name
    ensures r.Committed? ==>
      var kept := ActionableNodes(input.nodes);
      && |r.steps| == |kept|
      && (forall k | 0 <= k < |kept| :: kept[k].data.Obj? && r.steps[k] == StepInsertFor(kept[k], r.workflowId))
      && AllInserted(|kept|, stepRow)
      && r.edges == EdgeInserts(input.edges, IdMap(NodeIds(kept), ReturnedIds(|kept|, stepRow)), r.workflowId)
  {
    if workflowRow.None? {
      return RolledBack;
    }
    var workflowId := workflowRow.value;
    var kept := ActionableNodes(input.nodes);
    assert forall k | 0 <= k < |kept| :: kept[k].data.Obj? by {
      forall k | 0 <= k < |kept| ensures kept[k].data.Obj? {
        assert kept[k] in kept;
        var j :| 0 <= j < |input.nodes| && input.nodes[j] == kept[k];
      }
    }
    var inserted := InsertSteps(kept, workflowId, stepRow);
    if inserted.None? {
      return RolledBack;
    }
    var (steps, stepIdMap) := inserted.value;
    var edges := InsertEdges(input.edges, stepIdMap, workflowId);
    return Committed(workflowId, input.name, steps, edges);
  }

  lemma EdgeInsertsStep(edges: seq<FlowEdge>, i: nat, m: map<string, int>, workflowId: int)
    requires i < |edges|
    ensures EdgeInserts(edges[..i + 1], m, workflowId) ==
      EdgeInserts(edges[..i], m, workflowId) +
      (if BothMapped(m, edges[i]) then [EdgeInsert(workflowId, m[edges[i].source], m[edges[i].target])] else [])
  {
    assert edges[..i + 1] == edges[..i] + [edges[i]];
    FilterConcat(edges[..i], [edges[i]], MappedIn(m));
    var a := Filter(edges[..i], MappedIn(m));
    var b := Filter([edges[i]], MappedIn(m));
    assert b == if BothMapped(m, edges[i]) then [edges[i]] else [];
  }

  /** Every value of `stepIdMap` is a returned step id. */
  lemma {:induction false} IdMapValues(keys: seq<string>, ids: seq<int>)
    requires |keys| == |ids|
    ensures forall key | key in IdMap(keys, ids) :: IdMap(keys, ids)[key] in ids
    decreases |keys|
  {
    if |keys| > 0 {
      var n := |keys| - 1;
      IdMapValues(keys[..n], ids[..n]);
      forall key | key in IdMap(keys, ids) ensures IdMap(keys, ids)[key] in ids {
        if key != keys[n] {
          assert IdMap(keys, ids)[key] in ids[..n];
        }
      }
    }
  }

  /** As stored rows. */
  function StoredEdges(edges: seq<EdgeInsert>): (r: seq<StepEdge>)
    ensures |r| == |edges|
    ensures forall i | 0 <= i < |edges| :: r[i] == StepEdge(edges[i].sourceStepId, edges[i].targetStepId)
  {
    seq(|edges|, i requires 0 <= i < |edges| => StepEdge(edges[i].sourceStepId, edges[i].targetStepId))
  }

  /** A committed flow is a graph the engine can sort: every edge row built from
      the step-id map joins two of the step ids that map was built from. `InsertFlow`
      commits exactly these rows, with `keys` the actionable nodes' ids and `ids`
      the ids their inserts returned. */
  lemma CommittedEdgesJoinInsertedSteps(edges: seq<FlowEdge>, keys: seq<string>, ids: seq<int>, workflowId: int)
    requires |keys| == |ids|
    ensures EndpointsKnown(ids, StoredEdges(EdgeInserts(edges, IdMap(keys, ids), workflowId)))
    ensures forall e | e in EdgeInserts(edges, IdMap(keys, ids), workflowId) :: e.workflowId == workflowId
  {
    var m := IdMap(keys, ids);
    var r := EdgeInserts(edges, m, workflowId);
    IdMapValues(keys, ids);
    var stored := StoredEdges(r);
    forall e | e in stored ensures e.sourceStepId in ids && e.targetStepId in ids {
      var i :| 0 <= i < |stored| && stored[i] == e;
      var src := Filter(edges, MappedIn(m))[i];
      assert r[i] == EdgeInsert(workflowId, m[src.source], m[src.target]);
    }
  }

  /** An edge with an endpoint that no actionable node carries (an edge from or to a
      start or end node, say) yields no edge row. */
  lemma EdgesToDroppedNodesAreDropped(edges: seq<FlowEdge>, kept: seq<FlowNode>, ids: seq<int>, workflowId: int, e: FlowEdge)
    requires |kept| == |ids|
    requires e.source !in NodeIds(kept) || e.target !in NodeIds(kept)
    ensures e !in Filter(edges, MappedIn(IdMap(NodeIds(kept), ids)))
    ensures |EdgeInserts(edges, IdMap(NodeIds(kept), ids), workflowId)| <= |edges|
  {
  }

  /** An edge between two actionable nodes is inserted. */
  lemma EdgesBetweenStepsAreKept(edges: seq<FlowEdge>, kept: seq<FlowNode>, ids: seq<int>, e: FlowEdge)
    requires |kept| == |ids|
    requires e in edges && e.source in NodeIds(kept) && e.target in NodeIds(kept)
    ensures e in Filter(edges, MappedIn(IdMap(NodeIds(kept), ids)))
  {
  }

  /** The recorded column type agrees with `typeof` on strings, booleans and numbers,
      and records every other value, `null` included, as a number. */
  lemma InsertTypeVersusTypeOf(v: Json)
    ensures v.Str? || v.Bool? || v.Num? ==> InsertTypeName(v) == TypeOf(v)
    ensures !(v.Str? || v.Bool? || v.Num?) ==> InsertTypeName(v) == "number" != TypeOf(v)
  {
  }
}

=== FILE: json.dfy ===
/** JavaScript values as they travel through the program: JSON-shaped data plus
    `undefined`. Numbers are integers here. Strings are sequences of Unicode
    scalar values, not of UTF-16 code units. Objects keep their own enumerable
    properties in insertion order. */
module Json {
  import opened Wrappers
  import opened Decimal

  datatype Json =
    | Undefined
    | Null
    | Bool(b: bool)
    | Num(n: int)
    | Str(s: string)
    | Arr(items: seq<Json>)
    | Obj(fields: seq<Field>)

  datatype Field = Field(key: string, value: Json)

  /** The `typeof` operator. */
  function TypeOf(j: Json): string {
    match j
    case Undefined => "undefined"
    case Null => "object"
    case Bool(_) => "boolean"
    case Num(_) => "number"
    case Str(_) => "string"
    case Arr(_) => "object"
    case Obj(_) => "object"
  }

  function Keys(fields: seq<Field>): seq<string> {
    seq(|fields|, i requires 0 <= i < |fields| => fields[i].key)
  }

  /** The value stored under `key`, if the object has that own property. */
  function Get(fields: seq<Field>, key: string): (r: Option<Json>)
    ensures r.Some? <==> key in Keys(fields)
    ensures r.Some? ==> Field(key, r.value) in fields
    decreases |fields|
  {
    if |fields| == 0 then None
    else if fields[0].key == key then
      assert Keys(fields)[0] == key;
      Some(fields[0].value)
    else
      assert Keys(fields) == [fields[0].key] + Keys(fields[1..]);
      Get(fields[1..], key)
  }

  /** `Object.entries`: an object's own properties, an array's or string's index
      properties keyed by the decimal index; it throws on `undefined` and `null`. */
  function Entries(j: Json): (r: Result<seq<Field>, string>)
    ensures r.Failure? <==> j.Undefined? || j.Null?
    ensures j.Obj? ==> r == Success(j.fields)
    ensures j.Arr? ==> (r.Success? && |r.value| == |j.items|
                        && forall i | 0 <= i < |j.items| :: r.value[i] == Field(NatToString(i), j.items[i]))
    ensures j.Str? ==> (r.Success? && |r.value| == |j.s|
                        && forall i | 0 <= i < |j.s| :: r.value[i] == Field(NatToString(i), Str([j.s[i]])))
    ensures j.Bool? || j.Num? ==> r == Success([])
  {
    match j
    case Undefined => Failure("Cannot convert undefined or null to object")
    case Null => Failure("Cannot convert undefined or null to object")
    case Bool(_) => Success([])
    case Num(_) => Success([])
    case Str(s) => Success(seq(|s|, i requires 0 <= i < |s| => Field(NatToString(i), Str([s[i]]))))
    case Arr(items) => Success(seq(|items|, i requires 0 <= i < |items| => Field(NatToString(i), items[i])))
    case Obj(fields) => Success(fields)
  }

  /** `value?.[key]`: `undefined` on a nullish value. An array's or string's
      `length` is its own non-enumerable property; every other key is looked up
      among the `Object.entries` properties and reads `undefined` when absent. */
  function PropertyOf(j: Json, key: string): (r: Json)
    ensures (j.Undefined? || j.Null?) ==> r == Undefined
    ensures j.Obj? ==> r == Get(j.fields, key).GetOr(Undefined)
    ensures j.Arr? && key == "length" ==> r == Num(|j.items|)
    ensures j.Str? && key == "length" ==> r == Num(|j.s|)
    ensures j.Bool? || j.Num? ==> r == Undefined
  {
    if key == "length" && j.Arr? then Num(|j.items|)
    else if key == "length" && j.Str? then Num(|j.s|)
    else
      match Entries(j)
      case Failure(_) => Undefined
      case Success(fields) => Get(fields, key).GetOr(Undefined)
  }

  /** The `TypeError` message for reading `property` of `null`. */
  function NullReadMessage(property: string): string {
    "Cannot read properties of null (reading '" + property + "')"
  }

  /** `String(value)`, the key a value becomes when it indexes a plain object. */
  function PropertyKey(j: Json): string
    decreases j
  {
    match j
    case Undefined => "undefined"
    case Null => "null"
    case Bool(b) => if b then "true" else "false"
    case Num(n) => IntToString(n)
    case Str(s) => s
    case Obj(_) => "[object Object]"
    case Arr(items) =>
      // `Array.prototype.join`: nullish elements render as the empty string.
      Join(seq(|items|, i requires 0 <= i < |items| =>
        if items[i].Undefined? || items[i].Null? then "" else PropertyKey(items[i])), ",")
  }

  function Join(parts: seq<string>, sep: string): string
    decreases |parts|
  {
    if |parts| == 0 then ""
    else if |parts| == 1 then parts[0]
    else parts[0] + sep + Join(parts[1..], sep)
  }

  /** An array's element `i` is reached through the key `NatToString(i)`, and only
      through that key. */
  lemma ArrayIndexProperty(items: seq<Json>, i: nat)
    requires i < |items|
    ensures PropertyOf(Arr(items), NatToString(i)) == items[i]
  {
    var fields := Entries(Arr(items)).value;
    assert IsDigit(NatToString(i)[0]);
    ArrayKeyUnique(items, i, fields);
    GetFirst(fields, i);
  }

  lemma ArrayKeyUnique(items: seq<Json>, i: nat, fields: seq<Field>)
    requires i < |items|
    requires fields == Entries(Arr(items)).value
    ensures forall k | 0 <= k < i :: fields[k].key != NatToString(i)
  {
    forall k | 0 <= k < i ensures fields[k].key != NatToString(i) {
      assert fields[k].key == NatToString(k);
      if NatToString(k) == NatToString(i) {
        NatToStringInjective(k, i);
      }
    }
  }

  lemma {:induction false} GetFirst(fields: seq<Field>, i: nat)
    requires i < |fields|
    requires forall k | 0 <= k < i :: fields[k].key != fields[i].key
    ensures Get(fields, fields[i].key) == Some(fields[i].value)
    decreases i
  {
    if i > 0 {
      GetFirst(fields[1..], i - 1);
    }
  }
}

/** Decimal rendering of integers (`Number.prototype.toString`) and its inverse. */
module Decimal {

  function DigitChar(d: nat): char
    requires d < 10
  {
    "0123456789"[d]
  }

  predicate IsDigit(c: char) {
    '0' <= c <= '9'
  }

  function DigitValue(c: char): nat
    requires IsDigit(c)
  {
    (c - '0') as nat
  }

  function NatToString(n: nat): (s: string)
    ensures |s| >= 1
    ensures forall i | 0 <= i < |s| :: IsDigit(s[i])
    decreases n
  {
    if n < 10 then [DigitChar(n)] else NatToString(n / 10) + [DigitChar(n % 10)]
  }

  /** `toString()` of an integer: a minus sign before the magnitude when negative. */
  function IntToString(i: int): string {
    if i < 0 then "-" + NatToString(-i) else NatToString(i)
  }

  function ParseDigits(s: string): nat
    requires forall i | 0 <= i < |s| :: IsDigit(s[i])
    decreases |s|
  {
    if |s| == 0 then 0 else ParseDigits(s[..|s| - 1]) * 10 + DigitValue(s[|s| - 1])
  }

  /** Reading the digits back gives the number. */
  lemma {:induction false} ParseNatToString(n: nat)
    ensures ParseDigits(NatToString(n)) == n
    decreases n
  {
    var s := NatToString(n);
    if n >= 10 {
      ParseNatToString(n / 10);
      assert s[..|s| - 1] == NatToString(n / 10);
    }
  }

  lemma NatToStringInjective(a: nat, b: nat)
    requires NatToString(a) == NatToString(b)
    ensures a == b
  {
    ParseNatToString(a);
    ParseNatToString(b);
  }

  lemma SignOnlyWhenNegative(i: int)
    ensures IntToString(i)[0] == '-' <==> i < 0
  {
  }

  /** Distinct integers render to distinct strings. */
  lemma IntToStringInjective(a: int, b: int)
    requires IntToString(a) == IntToString(b)
    ensures a == b
  {
    var s := IntToString(a);
    if a < 0 && b < 0 {
      assert NatToString(-a) == s[1..] == NatToString(-b);
      NatToStringInjective(-a, -b);
    } else if a >= 0 && b >= 0 {
      assert NatToString(a) == s == NatToString(b);
      NatToStringInjective(a, b);
    } else {
      SignOnlyWhenNegative(a);
      SignOnlyWhenNegative(b);
    }
  }
}

=== FILE: seqs.dfy ===
/** Facts about sequences used by the graph algorithms: duplicate-freedom, the set of
    elements, first-occurrence deduplication, and the cardinality facts that tie them. */
module Seqs {

  predicate Distinct<T(==)>(s: seq<T>) {
    forall i, j | 0 <= i < |s| && 0 <= j < |s| && i != j :: s[i] != s[j]
  }

  /** No later element of `s` equals `s[i]`. */
  predicate LastOccurrence<T(==)>(s: seq<T>, i: nat)
    requires i < |s|
  {
    forall j | i < j < |s| :: s[j] != s[i]
  }

  function Elems<T>(s: seq<T>): set<T> {
    set x | x in s
  }

  /** The elements of `s` in order of first occurrence: the order in which a
      JavaScript `Map` keeps keys that were `set` repeatedly. */
  function Dedup<T(==)>(s: seq<T>): (d: seq<T>)
    ensures Distinct(d)
    ensures Elems(d) == Elems(s)
    decreases |s|
  {
    if |s| == 0 then []
    else
      var d := Dedup(s[..|s| - 1]);
      assert Elems(s) == Elems(s[..|s| - 1]) + {s[|s| - 1]} by {
        assert s == s[..|s| - 1] + [s[|s| - 1]];
      }
      if s[|s| - 1] in d then d else d + [s[|s| - 1]]
  }

  /** First index at which `x` occurs in `s`. */
  function IndexOf<T(==)>(s: seq<T>, x: T): (i: nat)
    requires x in s
    ensures i < |s| && s[i] == x
    ensures forall j | 0 <= j < i :: s[j] != x
  {
    if s[0] == x then 0 else 1 + IndexOf(s[1..], x)
  }

  lemma DistinctConcat<T>(a: seq<T>, b: seq<T>)
    requires Distinct(a) && Distinct(b)
    requires forall x | x in b :: x !in a
    ensures Distinct(a + b)
  {
    var c := a + b;
    forall i, j | 0 <= i < |c| && 0 <= j < |c| && i != j
      ensures c[i] != c[j]
    {
      if i < |a| && j < |a| {
        assert c[i] == a[i] && c[j] == a[j];
      } else if i < |a| {
        assert c[i] == a[i] && c[j] == b[j - |a|] && b[j - |a|] in b;
      } else if j < |a| {
        assert c[j] == a[j] && c[i] == b[i - |a|] && b[i - |a|] in b;
      } else {
        assert c[i] == b[i - |a|] && c[j] == b[j - |a|];
      }
    }
  }

  lemma {:induction false} ElemsCardBound<T>(s: seq<T>)
    ensures |Elems(s)| <= |s|
    ensures |Elems(s)| == |s| <==> Distinct(s)
    decreases |s|
  {
    if |s| > 0 {
      var p := s[..|s| - 1];
      var x := s[|s| - 1];
      assert s == p + [x];
      assert Elems(s) == Elems(p) + {x};
      ElemsCardBound(p);
      if x in p {
        assert Elems(s) == Elems(p);
        var k := IndexOf(p, x);
        assert s[k] == s[|s| - 1];
        assert !Distinct(s);
      } else {
        assert |Elems(s)| == |Elems(p)| + 1;
        if Distinct(p) {
          forall i, j | 0 <= i < |s| && 0 <= j < |s| && i != j
            ensures s[i] != s[j]
          {
            if i == |s| - 1 { assert s[j] in p; } else if j == |s| - 1 { assert s[i] in p; }
            else { assert s[i] == p[i] && s[j] == p[j]; }
          }
        } else {
          var i, j :| 0 <= i < |p| && 0 <= j < |p| && i != j && p[i] == p[j];
          assert s[i] == s[j];
        }
      }
    }
  }

  lemma {:induction false} SubsetCard<T>(a: set<T>, b: set<T>)
    requires a <= b
    ensures |a| <= |b|
    ensures |a| == |b| ==> a == b
    decreases |a|
  {
    if a != {} {
      var x :| x in a;
      SubsetCard(a - {x}, b - {x});
      if |a| == |b| {
        assert a - {x} == b - {x};
        assert a == (a - {x}) + {x} && b == (b - {x}) + {x};
      }
    } else if |b| == 0 {
      assert b == {};
    }
  }

  /** A duplicate-free sequence drawn from `universe` is no longer than it. */
  lemma DistinctWithin<T>(s: seq<T>, universe: set<T>)
    requires Distinct(s) && Elems(s) <= universe
    ensures |s| <= |universe|
  {
    ElemsCardBound(s);
    SubsetCard(Elems(s), universe);
  }

  /** When `b` has more distinct elements than `a`, one of them is missing from `a`. */
  lemma MissingElement<T>(a: seq<T>, b: seq<T>) returns (x: T)
    requires |Elems(b)| > |Elems(a)|
    ensures x in b && x !in a
  {
    var i := 0;
    while i < |b| && b[i] in a
      invariant 0 <= i <= |b|
      invariant forall k | 0 <= k < i :: b[k] in a
    {
      i := i + 1;
    }
    if i == |b| {
      assert Elems(b) <= Elems(a);
      SubsetCard(Elems(b), Elems(a));
      assert false;
    }
    x := b[i];
  }

  /** `Array.prototype.filter`: the elements satisfying `p`, in their original order. */
  function Filter<T>(s: seq<T>, p: T -> bool): (r: seq<T>)
    ensures |r| <= |s|
    ensures forall x | x in r :: x in s && p(x)
    ensures forall x | x in s && p(x) :: x in r
    decreases |s|
  {
    if |s| == 0 then []
    else if p(s[0]) then [s[0]] + Filter(s[1..], p)
    else Filter(s[1..], p)
  }

  /** Filtering commutes with concatenation, so the kept elements stay in order. */
  lemma {:induction false} FilterConcat<T>(a: seq<T>, b: seq<T>, p: T -> bool)
    ensures Filter(a + b, p) == Filter(a, p) + Filter(b, p)
    decreases |a|
  {
    if |a| > 0 {
      assert (a + b)[1..] == a[1..] + b;
      FilterConcat(a[1..], b, p);
    } else {
      assert a + b == b;
    }
  }

  /** Filtering twice by the same predicate changes nothing more. */
  lemma {:induction false} FilterIdempotent<T>(s: seq<T>, p: T -> bool)
    ensures Filter(Filter(s, p), p) == Filter(s, p)
    decreases |s|
  {
    if |s| > 0 {
      FilterIdempotent(s[1..], p);
      if p(s[0]) {
        assert ([s[0]] + Filter(s[1..], p))[1..] == Filter(s[1..], p);
      }
    }
  }

  /** Nothing is dropped when every element satisfies `p`. */
  lemma {:induction false} FilterAll<T>(s: seq<T>, p: T -> bool)
    requires forall i | 0 <= i < |s| :: p(s[i])
    ensures Filter(s, p) == s
    decreases |s|
  {
    if |s| > 0 {
      FilterAll(s[1..], p);
      assert s == [s[0]] + s[1..];
    }
  }

  /** Everything is dropped when no element satisfies `p`. */
  lemma {:induction false} FilterNone<T>(s: seq<T>, p: T -> bool)
    requires forall i | 0 <= i < |s| :: !p(s[i])
    ensures Filter(s, p) == []
    decreases |s|
  {
    if |s| > 0 {
      FilterNone(s[1..], p);
    }
  }
}

=== FILE: start_action.dfy ===
/** The `start` action: it checks its step's config against the start schema when
    built, and its execution reports completion with that config. */
module StartAction {
  import opened Wrappers
  import opened Json

  /** A workflow-step row as an action receives it; `config` is a string-keyed record. */
  datatype TWorkflowStep = TWorkflowStep(
    id: Option<int>,
    workflowId: int,
    workflowActionId: int,
    reactNodeId: string,
    config: Json,
    outputValues: Json)

  /** `WorkflowStep`: holds the row it was constructed with. */
  datatype WorkflowStep = WorkflowStep(workflowStep: TWorkflowStep)

  /** `getConfig`: the row's config, handed back as stored; the cast to the action's
      config type checks nothing. */
  function GetConfig(step: WorkflowStep): (config: Json)
    ensures config == step.workflowStep.config
  {
    step.workflowStep.config
  }

  /** The start schema: an object whose `label` is the string `"Start"` and whose
      `deletable` is a boolean. Other properties are allowed. */
  predicate StartConfigValid(config: Json): (ok: bool)
    ensures ok ==> config.Obj? && Field("label", Str("Start")) in config.fields
    ensures ok <==> config.Obj? && PropertyOf(config, "label") == Str("Start") && PropertyOf(config, "deletable").Bool?
  {
    && config.Obj?
    && Get(config.fields, "label") == Some(Str("Start"))
    && Get(config.fields, "deletable").Some?
    && Get(config.fields, "deletable").value.Bool?
  }

  datatype Start = Start(name: string, workflowStep: WorkflowStep)

  datatype StepResult = StepResult(result: string, inputData: Json)

  /** The constructor: throws "unable to parse" when the config fails the schema. */
  function NewStartAction(step: TWorkflowStep): (r: Result<Start, string>)
    ensures r.Failure? <==> !StartConfigValid(step.config)
    ensures r.Failure? ==> r.error == "unable to parse"
    ensures r.Success? ==> r.value.name == "start" && r.value.workflowStep.workflowStep == step
  {
    if StartConfigValid(step.config) then Success(Start("start", WorkflowStep(step)))
    else Failure("unable to parse")
  }

  /** `Execute`: always `COMPLETE`, echoing the stored config. */
  function Execute(action: Start): (r: StepResult)
    ensures r.result == "COMPLETE"
    ensures r.inputData == action.workflowStep.workflowStep.config
  {
    StepResult("COMPLETE", GetConfig(action.workflowStep))
  }

  /** Building then executing a start action hands back the config it was built
      from, which therefore satisfies the start schema. */
  lemma ExecuteEchoesValidatedConfig(step: TWorkflowStep)
    requires NewStartAction(step).Success?
    ensures Execute(NewStartAction(step).value) == StepResult("COMPLETE", step.config)
    ensures StartConfigValid(Execute(NewStartAction(step).value).inputData)
  {
  }

  /** The schema only looks at `label` and `deletable`: any config that starts with
      those two well-typed properties passes, whatever follows. */
  lemma StartSchemaAcceptsExtraProperties(deletable: bool, rest: seq<Field>)
    ensures StartConfigValid(Obj([Field("label", Str("Start")), Field("deletable", Bool(deletable))] + rest))
  {
    var fs := [Field("label", Str("Start")), Field("deletable", Bool(deletable))] + rest;
    assert fs[1..] == [Field("deletable", Bool(deletable))] + rest;
  }

  /** Whatever else the config holds, a `label` that does not read `"Start"` is
      rejected. */
  lemma StartSchemaRejectsOtherLabel(step: TWorkflowStep)
    requires PropertyOf(step.config, "label") != Str("Start")
    ensures NewStartAction(step) == Failure("unable to parse")
  {
  }

  /** So is a `deletable` that does not read a boolean, missing included. */
  lemma StartSchemaRejectsBadDeletable(step: TWorkflowStep)
    requires !PropertyOf(step.config, "deletable").Bool?
    ensures NewStartAction(step) == Failure("unable to parse")
  {
  }
}

=== FILE: topo_sort.dfy ===
/** `topologicalSort`: Kahn's algorithm over an in-degree map and adjacency lists,
    draining a FIFO queue seeded with the zero in-degree steps in declaration order. */
module TopoSort {
  import opened Wrappers
  import opened Seqs
  import opened Graph

  const CycleMessage := "Workflow has a cycle or disconnected steps."

  /** The first half of `BuildGraph`: every step id gets in-degree 0 and an empty
      adjacency list; `keys` records the first time each id is set. */
  method InitGraph(steps: seq<int>) returns (inDegree: map<int, int>, adj: map<int, seq<int>>, keys: seq<int>)
    ensures keys == Dedup(steps)
    ensures inDegree.Keys == Elems(steps) && adj.Keys == Elems(steps)
    ensures forall v | v in inDegree :: inDegree[v] == 0
    ensures forall v | v in adj :: adj[v] == []
  {
    inDegree, adj, keys := map[], map[], [];
    var i := 0;
    while i < |steps|
      invariant 0 <= i <= |steps|
      invariant keys == Dedup(steps[..i])
      invariant inDegree.Keys == Elems(steps[..i]) && adj.Keys == Elems(steps[..i])
      invariant forall v | v in inDegree :: inDegree[v] == 0
      invariant forall v | v in adj :: adj[v] == []
    {
      assert steps[..i + 1][..i] == steps[..i];
      assert Elems(steps[..i + 1]) == Elems(steps[..i]) + {steps[i]} by {
        assert steps[..i + 1] == steps[..i] + [steps[i]];
      }
      if steps[i] !in inDegree {
        keys := keys + [steps[i]];
      }
      inDegree := inDegree[steps[i] := 0];
      adj := adj[steps[i] := []];
      i := i + 1;
    }
    assert steps[..i] == steps;
  }

  /** The second half of `BuildGraph`: each edge adds one to its target's in-degree
      and appends its target to its source's adjacency list. */
  method AddEdges(steps: seq<int>, edges: seq<StepEdge>, inDegree0: map<int, int>, adj0: map<int, seq<int>>)
    returns (inDegree: map<int, int>, adj: map<int, seq<int>>)
    requires EndpointsKnown(steps, edges)
    requires inDegree0.Keys == Elems(steps) && adj0.Keys == Elems(steps)
    requires forall v | v in inDegree0 :: inDegree0[v] == 0
    requires forall v | v in adj0 :: adj0[v] == []
    ensures inDegree.Keys == Elems(steps) && adj.Keys == Elems(steps)
    ensures forall v | v in inDegree :: inDegree[v] == InDegree(edges, v)
    ensures forall v | v in adj :: adj[v] == Targets(edges, v)
  {
    inDegree, adj := inDegree0, adj0;
    var k := 0;
    while k < |edges|
      invariant 0 <= k <= |edges|
      invariant inDegree.Keys == Elems(steps) && adj.Keys == Elems(steps)
      invariant forall v | v in inDegree :: inDegree[v] == InDegree(edges[..k], v)
      invariant forall v | v in adj :: adj[v] == Targets(edges[..k], v)
    {
      var e := edges[k];
      assert edges[..k + 1][..k] == edges[..k];
      assert e in edges;
      adj := adj[e.sourceStepId := adj[e.sourceStepId] + [e.targetStepId]];
      inDegree := inDegree[e.targetStepId := inDegree[e.targetStepId] + 1];
      k := k + 1;
    }
    assert edges[..k] == edges;
  }

  /** Both maps are keyed by the step ids; `keys` is the insertion order of the
      in-degree map, which is the order its entries are later iterated in. */
  method BuildGraph(steps: seq<int>, edges: seq<StepEdge>)
    returns (inDegree: map<int, int>, adj: map<int, seq<int>>, keys: seq<int>)
    requires EndpointsKnown(steps, edges)
    ensures keys == Dedup(steps)
    ensures inDegree.Keys == Elems(steps) && adj.Keys == Elems(steps)
    ensures forall v | v in inDegree :: inDegree[v] == InDegree(edges, v)
    ensures forall v | v in adj :: adj[v] == Targets(edges, v)
  {
    var d, a;
    d, a, keys := InitGraph(steps);
    inDegree, adj := AddEdges(steps, edges, d, a);
  }

  /** The initial queue: the keys whose in-degree is zero, in key order. */
  method SeedQueue(keys: seq<int>, inDegree: map<int, int>, ghost edges: seq<StepEdge>)
    returns (queue: seq<int>)
    requires forall i | 0 <= i < |keys| :: keys[i] in inDegree && inDegree[keys[i]] == InDegree(edges, keys[i])
    ensures queue == ZeroIn(keys, edges)
  {
    queue := [];
    var j := 0;
    while j < |keys|
      invariant 0 <= j <= |keys|
      invariant queue == ZeroIn(keys[..j], edges)
    {
      assert keys[..j + 1][..j] == keys[..j];
      if inDegree[keys[j]] == 0 {
        queue := queue + [keys[j]];
      }
      j := j + 1;
    }
    assert keys[..j] == keys;
  }

  /** The neighbours enqueued while relaxing `ns[..m]`: a neighbour is enqueued at its
      last occurrence in `ns`, and only when `ns` lists it as often as its in-degree
      says, so that its in-degree ends at zero. */
  function LastZeros(ns: seq<int>, inDegree: map<int, int>, m: nat): (pushed: seq<int>)
    requires m <= |ns|
    decreases m
  {
    if m == 0 then []
    else
      var v := ns[m - 1];
      LastZeros(ns, inDegree, m - 1) +
        (if LastOccurrence(ns, m - 1) && v in inDegree && inDegree[v] == multiset(ns)[v] then [v] else [])
  }

  /** A neighbour's in-degree reaches zero at position `m` of `ns` exactly when this
      is its last occurrence and its in-degree ends at zero. */
  lemma ReachesZeroAtLast(ns: seq<int>, inDegree: map<int, int>, m: nat)
    requires m < |ns| && ns[m] in inDegree
    requires inDegree[ns[m]] >= multiset(ns)[ns[m]]
    ensures inDegree[ns[m]] - multiset(ns[..m + 1])[ns[m]] == 0 <==>
      LastOccurrence(ns, m) && inDegree[ns[m]] == multiset(ns)[ns[m]]
  {
    var v := ns[m];
    var tail := ns[m + 1..];
    assert ns == ns[..m + 1] + tail;
    assert multiset(ns)[v] == multiset(ns[..m + 1])[v] + multiset(tail)[v];
    if LastOccurrence(ns, m) {
      assert v !in tail by {
        forall j | 0 <= j < |tail| ensures tail[j] != v {
          assert tail[j] == ns[m + 1 + j];
        }
      }
    } else {
      var j :| m < j < |ns| && ns[j] == v;
      assert tail[j - m - 1] == v;
    }
  }

  lemma LastZerosStep(ns: seq<int>, inDegree: map<int, int>, m: nat, pushed: seq<int>, next': map<int, int>, pushed': seq<int>)
    requires m < |ns| && ns[m] in inDegree
    requires inDegree[ns[m]] >= multiset(ns)[ns[m]]
    requires pushed == LastZeros(ns, inDegree, m)
    requires ns[m] in next' && next'[ns[m]] == inDegree[ns[m]] - multiset(ns[..m + 1])[ns[m]]
    requires pushed' == if next'[ns[m]] == 0 then pushed + [ns[m]] else pushed
    ensures pushed' == LastZeros(ns, inDegree, m + 1)
  {
    ReachesZeroAtLast(ns, inDegree, m);
  }

  /** `Relax`'s loop invariant after the first `m` neighbours, apart from the order. */
  ghost predicate RelaxCounts(ns: seq<int>, inDegree: map<int, int>, m: nat, next: map<int, int>, pushed: seq<int>)
    requires m <= |ns|
  {
    && next.Keys == inDegree.Keys
    && (forall v | v in inDegree :: next[v] == inDegree[v] - multiset(ns[..m])[v])
    && Distinct(pushed)
    && (forall v | v in pushed :: v in ns && v in inDegree && next[v] == 0 && inDegree[v] > 0)
    && (forall v | v in inDegree && next[v] == 0 && inDegree[v] != 0 :: v in pushed)
  }

  /** `Relax`'s loop invariant after the first `m` neighbours. */
  ghost predicate RelaxProgress(ns: seq<int>, inDegree: map<int, int>, m: nat, next: map<int, int>, pushed: seq<int>)
    requires m <= |ns|
  {
    RelaxCounts(ns, inDegree, m, next, pushed) && pushed == LastZeros(ns, inDegree, m)
  }

  lemma CountsStep(ns: seq<int>, inDegree: map<int, int>, m: nat, next: map<int, int>, pushed: seq<int>,
                   next': map<int, int>, pushed': seq<int>)
    requires m < |ns| && ns[m] in inDegree
    requires forall v | v in inDegree :: inDegree[v] >= multiset(ns)[v]
    requires RelaxCounts(ns, inDegree, m, next, pushed)
    requires ns[m] in next && next' == next[ns[m] := next[ns[m]] - 1]
    requires pushed' == if next'[ns[m]] == 0 then pushed + [ns[m]] else pushed
    ensures RelaxCounts(ns, inDegree, m + 1, next', pushed')
    ensures ns[m] in next' && next'[ns[m]] == inDegree[ns[m]] - multiset(ns[..m + 1])[ns[m]]
  {
    var v := ns[m];
    assert ns[..m + 1] == ns[..m] + [v];
    assert ns == ns[..m + 1] + ns[m + 1..];
    assert multiset(ns)[v] >= multiset(ns[..m])[v] + 1;
    if next'[v] == 0 {
      DistinctConcat(pushed, [v]);
    }
  }
  lemma RelaxStep(ns: seq<int>, inDegree: map<int, int>, m: nat, next: map<int, int>, pushed: seq<int>,
                  next': map<int, int>, pushed': seq<int>)
    requires m < |ns| && ns[m] in inDegree
    requires forall v | v in inDegree :: inDegree[v] >= multiset(ns)[v]
    requires RelaxProgress(ns, inDegree, m, next, pushed)
    requires ns[m] in next && next' == next[ns[m] := next[ns[m]] - 1]
    requires pushed' == if next'[ns[m]] == 0 then pushed + [ns[m]] else pushed
    ensures RelaxProgress(ns, inDegree, m + 1, next', pushed')
  {
    CountsStep(ns, inDegree, m, next, pushed, next', pushed');
    LastZerosStep(ns, inDegree, m, pushed, next', pushed');
  }


  lemma RelaxStart(ns: seq<int>, inDegree: map<int, int>)
    ensures RelaxProgress(ns, inDegree, 0, inDegree, [])
  {
    assert ns[..0] == [];
  }

  lemma RelaxDone(ns: seq<int>, inDegree: map<int, int>, next: map<int, int>, pushed: seq<int>)
    requires RelaxProgress(ns, inDegree, |ns|, next, pushed)
    ensures next.Keys == inDegree.Keys
    ensures forall v | v in inDegree :: next[v] == inDegree[v] - multiset(ns)[v]
    ensures Distinct(pushed)
    ensures forall v | v in pushed :: v in ns && v in inDegree && next[v] == 0 && inDegree[v] > 0
    ensures forall v | v in inDegree && next[v] == 0 && inDegree[v] != 0 :: v in pushed
    ensures pushed == LastZeros(ns, inDegree, |ns|)
  {
    assert ns[..|ns|] == ns;
  }

  /** The loop of `Relax`: walks the whole neighbour list. */
  method RelaxLoop(ns: seq<int>, inDegree: map<int, int>) returns (next: map<int, int>, pushed: seq<int>)
    requires forall v | v in ns :: v in inDegree
    requires forall v | v in inDegree :: inDegree[v] >= multiset(ns)[v]
    ensures RelaxProgress(ns, inDegree, |ns|, next, pushed)
  {
    next, pushed := inDegree, [];
    RelaxStart(ns, inDegree);
    var m := 0;
    while m < |ns|
      invariant 0 <= m <= |ns|
      invariant RelaxProgress(ns, inDegree, m, next, pushed)
    {
      var v := ns[m];
      var next' := next[v := next[v] - 1];
      var pushed' := if next'[v] == 0 then pushed + [v] else pushed;
      RelaxStep(ns, inDegree, m, next, pushed, next', pushed');
      next, pushed := next', pushed';
      m := m + 1;
    }
  }

  /** Processing one dequeued node: decrement the in-degree of each neighbour
      (once per edge) and enqueue every neighbour whose in-degree drops to zero, in
      the order of the neighbour list. */
  method Relax(ns: seq<int>, inDegree: map<int, int>) returns (next: map<int, int>, pushed: seq<int>)
    requires forall v | v in ns :: v in inDegree
    requires forall v | v in inDegree :: inDegree[v] >= multiset(ns)[v]
    ensures next.Keys == inDegree.Keys
    ensures forall v | v in inDegree :: next[v] == inDegree[v] - multiset(ns)[v]
    ensures Distinct(pushed)
    ensures forall v | v in pushed :: v in ns && v in inDegree && next[v] == 0 && inDegree[v] > 0
    ensures forall v | v in inDegree && next[v] == 0 && inDegree[v] != 0 :: v in pushed
    ensures pushed == LastZeros(ns, inDegree, |ns|)
  {
    next, pushed := RelaxLoop(ns, inDegree);
    RelaxDone(ns, inDegree, next, pushed);
  }


  /** The loop invariant's ordering half: `result` respects every edge whose target
      it holds, and holds the source of each such edge. */
  predicate OrderedPrefix(edges: seq<StepEdge>, result: seq<int>) {
    && RespectsEdges(edges, result)
    && forall e | e in edges && e.targetStepId in result :: e.sourceStepId in result
  }

  lemma ExtendOrdered(edges: seq<StepEdge>, result: seq<int>, node: int)
    requires OrderedPrefix(edges, result)
    requires node !in result
    requires forall e | e in edges && e.targetStepId == node :: e.sourceStepId in result
    ensures OrderedPrefix(edges, result + [node])
  {
    var r := result + [node];
    forall e, a, b | e in edges && 0 <= a < |r| && 0 <= b < |r| && r[a] == e.sourceStepId && r[b] == e.targetStepId
      ensures a < b
    {
      if a < |result| && b < |result| {
        assert result[a] == r[a] && result[b] == r[b];
      }
    }
  }

  /** Facts about the loop state of TopologicalSort. */
  ghost predicate DrainInvariant(steps: seq<int>, edges: seq<StepEdge>, inDegree: map<int, int>,
                                 result: seq<int>, queue: seq<int>)
  {
    && inDegree.Keys == Elems(steps)
    && (forall v | v in inDegree :: inDegree[v] == InFrom(edges, v, Elems(result)))
    && Distinct(result + queue)
    && (forall v | v in result + queue :: v in steps)
    && (forall v | v in inDegree :: inDegree[v] == 0 <==> v in result + queue)
    && OrderedPrefix(edges, result)
  }

  /** The seeded queue and the freshly built in-degree map satisfy the invariant. */
  lemma DrainInit(steps: seq<int>, edges: seq<StepEdge>, inDegree: map<int, int>, queue: seq<int>)
    requires inDegree.Keys == Elems(steps)
    requires forall v | v in inDegree :: inDegree[v] == InDegree(edges, v)
    requires queue == Seed(steps, edges)
    ensures DrainInvariant(steps, edges, inDegree, [], queue)
  {
    ZeroInMembers(Dedup(steps), edges);
    assert [] + queue == queue;
    assert Elems<int>([]) == {};
  }

  /** The queue never holds a step that was already emitted. */
  lemma HeadFresh(result: seq<int>, queue: seq<int>)
    requires Distinct(result + queue) && |queue| > 0
    ensures queue[0] !in result
  {
    assert (result + queue)[|result|] == queue[0];
    forall k | 0 <= k < |result| ensures result[k] != queue[0] {
      assert (result + queue)[k] == result[k];
    }
  }

  /** The head of the queue may be relaxed: its adjacency list only names steps and
      never lowers an in-degree below zero. */
  lemma RelaxReady(steps: seq<int>, edges: seq<StepEdge>, inDegree: map<int, int>,
                   result: seq<int>, queue: seq<int>)
    requires EndpointsKnown(steps, edges)
    requires DrainInvariant(steps, edges, inDegree, result, queue)
    requires |queue| > 0
    ensures forall v | v in Targets(edges, queue[0]) :: v in inDegree
    ensures forall v | v in inDegree :: inDegree[v] >= multiset(Targets(edges, queue[0]))[v]
  {
    HeadFresh(result, queue);
    forall v | v in inDegree
      ensures inDegree[v] >= multiset(Targets(edges, queue[0]))[v]
    {
      InFromAdd(edges, v, Elems(result), queue[0]);
    }
    TargetsAreEdges(edges, queue[0]);
    forall v | v in Targets(edges, queue[0]) ensures v in inDegree {
      assert StepEdge(queue[0], v) in edges;
    }
  }

  /** One iteration of the drain loop keeps the invariant. */
  lemma DrainStep(steps: seq<int>, edges: seq<StepEdge>, inDegree: map<int, int>,
                  result: seq<int>, queue: seq<int>, next: map<int, int>, pushed: seq<int>)
    requires EndpointsKnown(steps, edges)
    requires DrainInvariant(steps, edges, inDegree, result, queue)
    requires |queue| > 0
    requires next.Keys == inDegree.Keys
    requires forall v | v in inDegree :: next[v] == inDegree[v] - multiset(Targets(edges, queue[0]))[v]
    requires Distinct(pushed)
    requires forall v | v in pushed :: v in Targets(edges, queue[0]) && v in inDegree && next[v] == 0 && inDegree[v] > 0
    requires forall v | v in inDegree && next[v] == 0 && inDegree[v] != 0 :: v in pushed
    ensures DrainInvariant(steps, edges, next, result + [queue[0]], queue[1..] + pushed)
    ensures (result + [queue[0]]) + (queue[1..] + pushed) == (result + queue) + pushed
  {
    var node := queue[0];
    var r := result + [node];
    var q := queue[1..] + pushed;
    assert result + queue == result + ([node] + queue[1..]);
    assert r + q == (result + queue) + pushed;
    assert Elems(r) == Elems(result) + {node};
    HeadFresh(result, queue);
    forall v | v in inDegree
      ensures next[v] == InFrom(edges, v, Elems(r))
    {
      InFromAdd(edges, v, Elems(result), node);
    }
    forall v | v in pushed ensures v !in result + queue {
      assert inDegree[v] != 0;
    }
    DistinctConcat(result + queue, pushed);
    TargetsAreEdges(edges, node);
    forall v | v in r + q ensures v in steps {
      if v in pushed {
        assert StepEdge(node, v) in edges;
      } else {
        assert v in result + queue;
      }
    }
    assert node in inDegree && inDegree[node] == 0;
    InFromZero(edges, node, Elems(result));
    ExtendOrdered(edges, result, node);
  }

  /** No step can be emitted twice, so the emitted steps never outnumber the declared ones. */
  lemma RemainingBound(steps: seq<int>, result: seq<int>, queue: seq<int>)
    requires Distinct(result + queue)
    requires forall v | v in result + queue :: v in steps
    ensures |result| + |queue| <= |steps|
  {
    forall x | x in Elems(result + queue) ensures x in Elems(steps) {
    }
    DistinctWithin(result + queue, Elems(steps));
    ElemsCardBound(steps);
  }

  /** When the queue runs dry, the result is either a topological order of the
      steps or it misses a step, and it misses one exactly when the ids repeat or
      the edges form a cycle. */
  lemma DrainOutcome(steps: seq<int>, edges: seq<StepEdge>, inDegree: map<int, int>, result: seq<int>)
    requires EndpointsKnown(steps, edges)
    requires DrainInvariant(steps, edges, inDegree, result, [])
    ensures |result| == |steps| ==> IsTopologicalOrder(steps, edges, result)
    ensures |result| != |steps| <==> !Distinct(steps) || HasCycle(edges)
  {
    assert result + [] == result;
    forall x | x in Elems(result) ensures x in Elems(steps) {
      assert x in result + [];
    }
    ElemsCardBound(result);
    ElemsCardBound(steps);
    SubsetCard(Elems(result), Elems(steps));
    if |result| == |steps| {
      assert Elems(result) == Elems(steps);
      forall e | e in edges ensures e.sourceStepId in result && e.targetStepId in result {
        assert e.sourceStepId in Elems(steps) && e.targetStepId in Elems(steps);
      }
      OrderedHasNoCycle(edges, result);
    } else if Distinct(steps) {
      var missing := Elems(steps) - Elems(result);
      var v := MissingElement(result, steps);
      forall u | u in missing ensures EnteredFrom(edges, u, missing) {
        assert inDegree[u] != 0;
        InFromPositive(edges, u, Elems(result));
        var e :| e in edges && e.targetStepId == u && e.sourceStepId !in Elems(result);
        assert e.sourceStepId in Elems(steps);
      }
      CycleFromUnsatisfied(edges, missing, v);
    }
  }

  /** Kahn's algorithm. Fails exactly when fewer steps come out than went in. */
  method TopologicalSort(steps: seq<int>, edges: seq<StepEdge>) returns (r: Result<seq<int>, string>)
    requires EndpointsKnown(steps, edges)
    ensures r.Success? ==> IsTopologicalOrder(steps, edges, r.value)
    ensures r.Success? ==> Seed(steps, edges) <= r.value
    ensures r.Failure? ==> r.error == CycleMessage
    ensures r.Failure? <==> !Distinct(steps) || HasCycle(edges)
  {
    var inDegree, adj, keys := BuildGraph(steps, edges);
    var queue := SeedQueue(keys, inDegree, edges);
    ghost var seed := queue;
    DrainInit(steps, edges, inDegree, queue);
    var result: seq<int> := [];
    assert result + queue == queue;
    while |queue| > 0
      invariant DrainInvariant(steps, edges, inDegree, result, queue)
      invariant adj.Keys == Elems(steps)
      invariant forall v | v in adj :: adj[v] == Targets(edges, v)
      invariant seed <= result + queue
      decreases |steps| - |result|
    {
      var node := queue[0];
      RelaxReady(steps, edges, inDegree, result, queue);
      var next, pushed := Relax(adj[node], inDegree);
      DrainStep(steps, edges, inDegree, result, queue, next, pushed);
      result := result + [node];
      queue := queue[1..] + pushed;
      inDegree := next;
      RemainingBound(steps, result, queue);
    }
    DrainOutcome(steps, edges, inDegree, result);
    if |result| != |steps| {
      return Failure(CycleMessage);
    }
    assert result + [] == result;
    return Success(result);
  }
}

=== FILE: wrappers.dfy ===
/** Failure-compatible wrappers used across the model: `Option` for values that
    may be `undefined`/`null` in the program, `Result` for operations that throw. */
module Wrappers {

  datatype Option<+T> = None | Some(value: T) {

    predicate IsFailure() {
      None?
    }

    function PropagateFailure<U>(): Option<U>
      requires None?
    {
      None
    }

    function Extract(): T
      requires Some?
    {
      value
    }

    /** The contained value, or `default` when there is none (the `??` operator). */
    function GetOr(default: T): T {
      match this
      case Some(v) => v
      case None => default
    }
  }

  /** `Failure(error)` stands for a thrown `Error` carrying that message. */
  datatype Result<+R, +E> = Success(value: R) | Failure(error: E) {

    predicate IsFailure() {
      Failure?
    }

    function PropagateFailure<U>(): Result<U, E>
      requires Failure?
    {
      Failure(error)
    }

    function Extract(): R
      requires Success?
    {
      value
    }
  }

  /** `xs.map(f)` where `f` may throw: the results in order, or the error of the
      first element that throws. */
  function MapResults<A, B, E>(xs: seq<A>, f: A -> Result<B, E>): (r: Result<seq<B>, E>)
    ensures r.Success? <==> forall i | 0 <= i < |xs| :: f(xs[i]).Success?
    ensures r.Success? ==> (|r.value| == |xs| && forall i | 0 <= i < |xs| :: f(xs[i]) == Success(r.value[i]))
    ensures r.Failure? ==> exists i | 0 <= i < |xs| ::
      f(xs[i]) == Failure(r.error) && forall k | 0 <= k < i :: f(xs[k]).Success?
    decreases |xs|
  {
    if |xs| == 0 then Success([])
    else
      match f(xs[0])
      case Failure(e) => Failure(e)
      case Success(y) =>
        assert forall i | 1 <= i < |xs| :: xs[i] == xs[1..][i - 1];
        match MapResults(xs[1..], f)
        case Failure(e) =>
          Failure(e)
        case Success(ys) => Success([y] + ys)
  }

  /** Mapping a concatenation maps each part, in order. */
  lemma MapResultsConcat<A, B, E>(xs: seq<A>, ys: seq<A>, f: A -> Result<B, E>)
    requires MapResults(xs, f).Success? && MapResults(ys, f).Success?
    ensures MapResults(xs + ys, f) == Success(MapResults(xs, f).value + MapResults(ys, f).value)
  {
    var zs := xs + ys;
    forall i | 0 <= i < |zs| ensures f(zs[i]).Success? {
      if i < |xs| { assert zs[i] == xs[i]; } else { assert zs[i] == ys[i - |xs|]; }
    }
    var r := MapResults(zs, f).value;
    var q := MapResults(xs, f).value + MapResults(ys, f).value;
    forall i | 0 <= i < |zs| ensures r[i] == q[i] {
      if i < |xs| { assert zs[i] == xs[i]; } else { assert zs[i] == ys[i - |xs|]; }
    }
    assert r == q;
  }
}
